=== FILE: README.md ===
# R6J request vocabulary and HTTP helper, in Dafny

This project models the core of R6J, a Java client for Rainbow Six Siege player statistics.
It covers three parts:

- **The operator catalogue** (`Operator`). There are forty constants, each with a display name, a side (`atk`/`def`), an index token such as `2:1`, a signature-gadget statistic token and a badge URL. Each constant's `id` is its constant name in lower case. Two statistic keys are derived from these fields: the gadget key `operatorpvp_<id>_<gadget>:<index>` and the per-operator key `operatorpvp_<statistic>:<index>:infinite`.
- **The game-mode catalogue** (`Gamemode`). There are three modes, each with a remote token and a display name. A mode can be looked up by its token, ignoring case. Each mode has a statistic key `<token>pvp_<statistic>:infinite`.
- **The HTTP helper** (`HttpUtil`). It covers:
  - the URL builder, which form-encodes alternating key/value parameters with UTF-8 and joins them as `key=value` pairs with `&` after a `?`;
  - the input checks of `connect`, `get` and `post`;
  - what `get` and `post` do to a connection: the request method, the request properties (`Content-Type: application/json` first, then the caller's headers in order, later ones replacing earlier ones), the output and cache flags, and, for `post`, the payload bytes.

Modules:

- `Wrappers`: `Option`.
- `Text`: ASCII case mapping, `equalsIgnoreCase`, prefix and suffix predicates.
- `Operators` and `Gamemodes`: the two catalogues, one function per column, plus readers that turn a key back into what it names.
- `FormUrlEncoding`: `URLEncoder.encode(s, "UTF-8")`, following section 5.2 of the WHATWG URL Standard and RFC 3629. It comes with an independent decoder.
- `Query`: the `StringJoiner` query string and a reader for it.
- `HttpUtil`:
  - the `Connection` class, whose fields the operations update in place;
  - the `BuildUrl`, `Connect`, `Get` and `Post` methods;
  - the `Parse` guard.

The id of an operator is the lower-cased constant name (`JAGER` gives `jager`), as the constructor computes it. It is not the lower-cased display name (`Jäger` would give `jäger`); the model follows the constructor.

## Model

| member | source | states |
|---|---|---|
| Text.ToLower | src/main/com/github/courtneyjoew/declarations/Operator.java:67 | lower-casing keeps the length (each character is mapped by the ASCII case mapping) |
| Text.LowerChar | src/main/com/github/courtneyjoew/declarations/Operator.java:67 | an upper-case ASCII letter maps to a lower-case letter, and any other character to itself; no upper-case letter comes out |
| Text.UpperChar | src/main/com/github/courtneyjoew/declarations/Gamemode.java:26 | a lower-case ASCII letter maps to an upper-case letter, and any other character to itself; no lower-case letter comes out |
| Text.CharEqualsIgnoreCase | src/main/com/github/courtneyjoew/declarations/Gamemode.java:26 | two characters match when they are equal, their upper-case forms are equal, or the lower-case forms of those are equal (the three tests of `regionMatches(true, ...)`, with ASCII case mapping) |
| Text.EqualsIgnoreCase | src/main/com/github/courtneyjoew/declarations/Gamemode.java:26 | `a.equalsIgnoreCase(b)` for non-null `b`: equal lengths and matching characters at every position |
| Text.EqualsIgnoreCaseIffSameLower | src/main/com/github/courtneyjoew/declarations/Gamemode.java:26 | two strings are equal ignoring case exactly when their lower-case forms are equal |
| Text.EqualsIgnoreCaseSymmetric | src/main/com/github/courtneyjoew/declarations/Gamemode.java:26 | ignoring case, `a` equals `b` exactly when `b` equals `a` |
| Text.EqualsIgnoreCaseTransitive | src/main/com/github/courtneyjoew/declarations/Gamemode.java:26 | equality ignoring case is transitive |
| Text.ToLowerEnds | src/main/com/github/courtneyjoew/declarations/Operator.java:67 | lower-casing keeps the length, and upper-casing the first and last characters of the result gives back those of a string whose ends are upper-case letters |
| Text.FourParts | src/main/com/github/courtneyjoew/declarations/Gamemode.java:33 | a key built from four parts starts with the first two, ends with the last, and begins with the first part's first character |
| Operators.Name | src/main/com/github/courtneyjoew/declarations/Operator.java:4-57 | `name()`: each constant's identifier as declared, for example `JAGER` |
| Operators.DisplayName | src/main/com/github/courtneyjoew/declarations/Operator.java:4-57 | `getDisplayName()`: the first constructor argument of each constant |
| Operators.Category | src/main/com/github/courtneyjoew/declarations/Operator.java:4-57 | `getCategory()`: the second constructor argument, `atk` or `def` |
| Operators.Index | src/main/com/github/courtneyjoew/declarations/Operator.java:4-57 | `getIndex()`: the third constructor argument, such as `2:1` |
| Operators.Gadget | src/main/com/github/courtneyjoew/declarations/Operator.java:4-57 | `getGadget()`: the fourth constructor argument, the gadget statistic token |
| Operators.BadgeUrl | src/main/com/github/courtneyjoew/declarations/Operator.java:4-57 | `getBadgeUrl()`: the fifth constructor argument |
| Operators.Id | src/main/com/github/courtneyjoew/declarations/Operator.java:67 | `getId()`: the constant's name lower-cased, computed once in the constructor |
| Operators.GadgetStatisticQuery | src/main/com/github/courtneyjoew/declarations/Operator.java:100-102 | `getGadgetStatisticQuery()`: `operatorpvp_`, the id, `_`, the gadget, `:` and the index |
| Operators.StatisticName | src/main/com/github/courtneyjoew/declarations/Operator.java:104-106 | `getStatisticName(s)`: `operatorpvp_`, the statistic, `:`, the index and `:infinite` |
| Operators.IdExamples | src/main/com/github/courtneyjoew/declarations/Operator.java:67 | the ids of SMOKE, JAGER, CAPITAO and IQ are `smoke`, `jager`, `capitao`, `iq` |
| Operators.IdIsLowerCaseName | src/main/com/github/courtneyjoew/declarations/Operator.java:66-78 | `getId()` has the constant name's length, no upper-case letter, and equals the name ignoring case |
| Operators.FromId | src/main/com/github/courtneyjoew/declarations/Operator.java:66-78 | a lookup by id only returns an operator that has that id |
| Operators.FromOwnId | src/main/com/github/courtneyjoew/declarations/Operator.java:66-78 | looking up an operator's own id finds that operator |
| Operators.IdInjective | src/main/com/github/courtneyjoew/declarations/Operator.java:66-78 | no two operators share an id |
| Operators.NameEndsOwner | src/main/com/github/courtneyjoew/declarations/Operator.java:4-57 | every constant name starts and ends with an upper-case letter, and its length, first and last letter single out the constant |
| Operators.NameInjective | src/main/com/github/courtneyjoew/declarations/Operator.java:4-57 | no two constants share a name |
| Operators.Ordinal | src/main/com/github/courtneyjoew/declarations/Operator.java:4-57 | `ordinal()`: the position of each constant in the declaration, SMOKE at 0 through ALIBI at 39 |
| Operators.FromOrdinal | src/main/com/github/courtneyjoew/declarations/Operator.java:4-57 | `values()[n]`: the constant declared at position `n`, or nothing past the last one |
| Operators.OrdinalRoundTrip | src/main/com/github/courtneyjoew/declarations/Operator.java:4-57 | every constant has a position below 40, and that position gives the constant back |
| Operators.FortyConstants | src/main/com/github/courtneyjoew/declarations/Operator.java:4-57 | exactly the positions 0 to 39 hold a constant, and each gives back its own position |
| Operators.IndexOwnerOf | src/main/com/github/courtneyjoew/declarations/Operator.java:4-57 | every index token is a digit, a colon and a character from 1-9 or A-F, and its first and last characters single out the constant |
| Operators.IndexShape | src/main/com/github/courtneyjoew/declarations/Operator.java:4-57 | every index token is a digit, a colon, and a character from 1-9 or A-F |
| Operators.CategoryIsAtkOrDef | src/main/com/github/courtneyjoew/declarations/Operator.java:4-57 | every category is `atk` or `def` |
| Operators.IndexInjective | src/main/com/github/courtneyjoew/declarations/Operator.java:4-57 | no two operators share an index token |
| Operators.FromIndex | src/main/com/github/courtneyjoew/declarations/Operator.java:88-90 | a lookup by index token only returns an operator that has that token |
| Operators.FromOwnIndex | src/main/com/github/courtneyjoew/declarations/Operator.java:88-90 | looking up an operator's own index token finds that operator |
| Operators.GadgetStatisticQueryExample | src/main/com/github/courtneyjoew/declarations/Operator.java:100-102 | SMOKE's gadget key is `operatorpvp_smoke_poisongaskill:2:1` |
| Operators.GadgetKeyParts | src/main/com/github/courtneyjoew/declarations/Operator.java:101 | a gadget key starts with `operatorpvp_`, the id and `_`, and ends with `:` and the index |
| Operators.GadgetStatisticQueryIdentifies | src/main/com/github/courtneyjoew/declarations/Operator.java:100-102 | `getGadgetStatisticQuery()` starts with `operatorpvp_<id>_` and ends with `:<index>`; two operators with equal gadget keys are the same operator |
| Operators.StatisticKeyParts | src/main/com/github/courtneyjoew/declarations/Operator.java:105 | a per-operator key is `operatorpvp_`, the statistic, `:`, the index and `:infinite`, and each part sits at a fixed offset |
| Operators.StatisticNameShape | src/main/com/github/courtneyjoew/declarations/Operator.java:104-106 | `getStatisticName(s)` starts with `operatorpvp_`, ends with `:<index>:infinite`, and is 25 characters longer than `s` |
| Operators.ParseStatisticNameRoundTrip | src/main/com/github/courtneyjoew/declarations/Operator.java:104-106 | reading a per-operator key back gives the operator and the statistic |
| Operators.StatisticNameInjective | src/main/com/github/courtneyjoew/declarations/Operator.java:104-106 | equal per-operator keys have the same operator and the same statistic |
| Gamemodes.UbiName | src/main/com/github/courtneyjoew/declarations/Gamemode.java:4-18 | `getUbiName()`: `securearea`, `rescuehostage` and `plantbomb` |
| Gamemodes.DisplayName | src/main/com/github/courtneyjoew/declarations/Gamemode.java:4-22 | `getDisplayName()`: `Secure Area`, `Hostage Rescue` and `Bomb` |
| Gamemodes.Values | src/main/com/github/courtneyjoew/declarations/Gamemode.java:4-6 | `values()`: SECURE_AREA, HOSTAGE and BOMB, in declaration order; the order the lookup searches in |
| Gamemodes.GetByUbiName | src/main/com/github/courtneyjoew/declarations/Gamemode.java:24-30 | `getByUbiName(t)`: null for a null token, otherwise the search over `values()` in declaration order |
| Gamemodes.StatisticName | src/main/com/github/courtneyjoew/declarations/Gamemode.java:32-34 | `getStatisticName(s)`: the token, `pvp_`, the statistic and `:infinite` |
| Gamemodes.UbiNamesLowerCaseAndDistinct | src/main/com/github/courtneyjoew/declarations/Gamemode.java:4-6 | the mode tokens are lower case and distinct even ignoring case |
| Gamemodes.UbiNameFirstLetter | src/main/com/github/courtneyjoew/declarations/Gamemode.java:4-6 | the tokens are non-empty and their first letters tell the modes apart |
| Gamemodes.FindByUbiName | src/main/com/github/courtneyjoew/declarations/Gamemode.java:25-29 | the search returns the first mode in the list whose token matches ignoring case; it returns nothing exactly when no token matches |
| Gamemodes.ByUbiName | src/main/com/github/courtneyjoew/declarations/Gamemode.java:24-30 | the loop over `values()` with an early return gives the same answer as the search over the declaration order |
| Gamemodes.GetByUbiNameSpec | src/main/com/github/courtneyjoew/declarations/Gamemode.java:24-30 | `getByUbiName(t)` is mode `m` exactly when `t` is non-null and equals `m`'s token ignoring case; it is null exactly when `t` is null or matches no token |
| Gamemodes.GetByOwnUbiName | src/main/com/github/courtneyjoew/declarations/Gamemode.java:16-30 | `getByUbiName(m.getUbiName())` is `m` |
| Gamemodes.GetByUbiNameIgnoresCase | src/main/com/github/courtneyjoew/declarations/Gamemode.java:24-30 | tokens that are equal ignoring case look up the same mode |
| Gamemodes.GetByUbiNameExamples | src/main/com/github/courtneyjoew/declarations/Gamemode.java:24-30 | `SECUREAREA` and `securearea` both find SECURE_AREA |
| Gamemodes.GetByUnknownUbiName | src/main/com/github/courtneyjoew/declarations/Gamemode.java:24-30 | `nonexistent` and null find nothing |
| Gamemodes.StatisticNameExample | src/main/com/github/courtneyjoew/declarations/Gamemode.java:32-34 | BOMB's `kills` key is `plantbombpvp_kills:infinite` |
| Gamemodes.StatisticNameIdentifies | src/main/com/github/courtneyjoew/declarations/Gamemode.java:32-34 | `getStatisticName(s)` starts with `<token>pvp_` and ends with `:infinite`; equal keys have the same mode and the same statistic |
| FormUrlEncoding.Utf8 | src/main/util/HttpUtil.java:96-98 | the UTF-8 encoding of a character is 1 to 4 bytes |
| FormUrlEncoding.HexDigit | src/main/util/HttpUtil.java:96-98 | every hexadecimal digit the encoder writes is `0`-`9` or upper-case `A`-`F`, a character it leaves unescaped |
| FormUrlEncoding.PercentBytes | src/main/util/HttpUtil.java:96-98 | each byte becomes three characters, `%` and two hexadecimal digits |
| FormUrlEncoding.EncodeChar | src/main/util/HttpUtil.java:96-98 | one character encodes to at least one character |
| FormUrlEncoding.Encode | src/main/util/HttpUtil.java:96-98 | `URLEncoder.encode(s, "UTF-8")` is at least as long as `s` |
| FormUrlEncoding.EncodeHead | src/main/util/HttpUtil.java:96-98 | the encoding of a non-empty string is at least as long as the string |
| FormUrlEncoding.EncodeCons | src/main/util/HttpUtil.java:96-98 | a non-empty string encodes as its first character's encoding followed by the rest's |
| FormUrlEncoding.ReadPercentBytes | src/main/util/HttpUtil.java:96-98 | reading `k` percent groups yields `k` bytes and uses `3k` characters |
| FormUrlEncoding.DecodeOne | src/main/util/HttpUtil.java:96-98 | decoding one character consumes at least one and at most all of the input |
| FormUrlEncoding.HexRoundTrip | src/main/util/HttpUtil.java:96-98 | reading a written hexadecimal digit gives its value back |
| FormUrlEncoding.PercentByteRead | src/main/util/HttpUtil.java:96-98 | one written `%XX` group starts with `%`, has two hexadecimal digits whose value is the byte, and is followed by whatever came after it |
| FormUrlEncoding.ReadPercentBytesRoundTrip | src/main/util/HttpUtil.java:96-98 | reading back the percent groups written for some bytes gives those bytes, whatever follows |
| FormUrlEncoding.ReadPercentBytesPrefix | src/main/util/HttpUtil.java:96-98 | reading only the first group gives the first byte |
| FormUrlEncoding.Utf8RoundTrip | src/main/util/HttpUtil.java:96-98 | the lead byte announces the sequence's length, and decoding the UTF-8 of a character gives that character |
| FormUrlEncoding.DecodeOneEncodeChar | src/main/util/HttpUtil.java:96-98 | decoding the encoding of one character gives the character and the length of its encoding |
| FormUrlEncoding.DecodeEncode | src/main/util/HttpUtil.java:96-98 | decoding `URLEncoder.encode(s)` gives `s` back |
| FormUrlEncoding.EncodeInjective | src/main/util/HttpUtil.java:96-98 | different strings encode differently |
| FormUrlEncoding.PercentBytesAlphabet | src/main/util/HttpUtil.java:96-98 | the escapes hold `%` at every position divisible by three and an upper-case hexadecimal digit (`0`-`9`, `A`-`F`) at every other position |
| FormUrlEncoding.EncodeAlphabet | src/main/util/HttpUtil.java:96-98 | an encoded string holds only unreserved characters, `+` and `%` |
| FormUrlEncoding.EncodeHasNoSeparators | src/main/util/HttpUtil.java:96-98 | an encoded string holds no `&`, `=`, space or `?` |
| FormUrlEncoding.EncodeUnreserved | src/main/util/HttpUtil.java:96-98 | a string of letters, digits, `.`, `-`, `*` and `_` encodes to itself |
| FormUrlEncoding.EncodeExamples | src/main/util/HttpUtil.java:96-98 | `b c` encodes to `b+c` and `e&f` to `e%26f` |
| Query.Segment | src/main/util/HttpUtil.java:96-98 | one joiner element: the encoded key, `=`, and the encoded value |
| Query.Join | src/main/util/HttpUtil.java:91-104 | `StringJoiner.toString()`: nothing for no elements, otherwise the elements with `&` between them |
| Query.QueryString | src/main/util/HttpUtil.java:90-105 | the joiner's text for an even-length list: the elements of the pairs, in order, joined with `&` |
| Query.MapPairs | src/main/util/HttpUtil.java:95-99 | one element per key/value pair, in order; the recursive function the `buildUrl` loop is proved equal to |
| Query.Segments | src/main/util/HttpUtil.java:95-99 | the elements the `buildUrl` loop adds to the joiner: `Segment` of each key/value pair, in order |
| Query.Pairs | src/main/util/HttpUtil.java:95-99 | pair `k` is the parameters `2k` and `2k+1` |
| Query.FirstIndex | src/main/util/HttpUtil.java:96-98 | the first `=` of an element is at the given position, and no `=` comes before it |
| Query.Split | src/main/util/HttpUtil.java:91 | splitting gives at least one piece |
| Query.JoinAppend | src/main/util/HttpUtil.java:91-96 | adding an element to an empty joiner gives that element; adding one to a non-empty joiner appends `&` and the element |
| Query.MapPairsAt | src/main/util/HttpUtil.java:95-99 | element `k` is computed from the parameters `2k` and `2k+1` |
| Query.MapPairsPrefix | src/main/util/HttpUtil.java:95-99 | handling the pair at `i` appends one element to those of the first `i` parameters |
| Query.SegmentsAt | src/main/util/HttpUtil.java:95-99 | element `k` is `encode(p[2k]) + "=" + encode(p[2k+1])` |
| Query.SegmentsPrefix | src/main/util/HttpUtil.java:95-99 | one loop step appends the element for the pair at `i` |
| Query.SplitNoSep | src/main/util/HttpUtil.java:91 | a string with no separator splits into itself |
| Query.SplitAfterPiece | src/main/util/HttpUtil.java:91 | a separator-free piece followed by the separator splits off as the first piece |
| Query.SplitJoin | src/main/util/HttpUtil.java:91 | splitting a join of separator-free elements gives the elements back |
| Query.ParseSegmentRoundTrip | src/main/util/HttpUtil.java:96-98 | a `key=value` element splits at the `=` the builder wrote and decodes to the original key and value |
| Query.ParseSegmentsRoundTrip | src/main/util/HttpUtil.java:95-99 | the elements decode to the original pairs, in order |
| Query.SegmentHasNoAmpersand | src/main/util/HttpUtil.java:96-98 | no element contains `&` |
| Query.QueryRoundTrip | src/main/util/HttpUtil.java:90-105 | for a non-empty list the query string splits on `&` into exactly the elements; for every list, reading it back gives the original pairs |
| Query.QueryStringExample | src/main/util/HttpUtil.java:90-105 | `a`, `b c`, `d`, `e&f` give the query `a=b+c&d=e%26f` |
| HttpUtil.BuildUrl | src/main/util/HttpUtil.java:90-105 | `buildUrl` returns the URL, `?`, and the query string of the pairs; the loop keeps the joiner equal to the query string of the pairs read so far |
| HttpUtil.AddPair | src/main/util/HttpUtil.java:96-98 | one turn of the loop: adding the encoded pair at `i` to the joiner that holds the query string of the first `i` parameters leaves it holding that of the first `i+2` |
| HttpUtil.JoinStep | src/main/util/HttpUtil.java:95-99 | adding the pair at `i` turns the query string of the first `i` parameters into that of the first `i+2` |
| HttpUtil.Connect | src/main/util/HttpUtil.java:130-147 | `connect` gives no connection when the parameter count is odd, the URL is null, empty or invalid, or opening the built URL throws `IOException`; when opening gives a connection that is not HTTP the cast throws `ClassCastException` (`castFails`); otherwise it returns a new connection to the built URL with the default method and no request properties |
| HttpUtil.Connection.constructor | src/main/util/HttpUtil.java:139 | a newly opened connection uses GET, has no request properties, has output off and caching on, and has written nothing |
| HttpUtil.Connection.SetRequestProperty | src/main/util/HttpUtil.java:40 | setting a request property replaces that key's value and keeps the other keys |
| HttpUtil.SetHeaders | src/main/util/HttpUtil.java:39-41 | the header loop leaves the request properties equal to the header pairs applied in order |
| HttpUtil.Get | src/main/util/HttpUtil.java:28-48 | `get` proceeds exactly when the connection is non-null and the header count is even, and otherwise changes nothing; when it proceeds it sets method GET, JSON Content-Type and then the headers, turns output on and caching off, and writes nothing |
| HttpUtil.WriteBytes | src/main/util/HttpUtil.java:78 | `writeBytes` writes at least one byte per character |
| HttpUtil.Post | src/main/util/HttpUtil.java:58-82 | `post` proceeds exactly when the connection and the payload are non-null and the header count is even, and otherwise changes nothing; when it proceeds it does what `get` does with method POST, and appends the payload's bytes to the body |
| HttpUtil.Parse | src/main/util/HttpUtil.java:154-166 | `parse(null)` is null |
| HttpUtil.Applied | src/main/util/HttpUtil.java:39-41 | the request properties after `setRequestProperty` is called for each header pair in order, each call replacing that key's value |
| HttpUtil.AppliedHas | src/main/util/HttpUtil.java:39-41 | after the headers are applied, a key is present exactly when it was before or some pair sets it |
| HttpUtil.AppliedLast | src/main/util/HttpUtil.java:39-41 | a key set by some pair has the value of the last pair that sets it |
| HttpUtil.AppliedKeeps | src/main/util/HttpUtil.java:39-41 | a key no pair sets keeps its old value |
| HttpUtil.ContentTypeSent | src/main/util/HttpUtil.java:36-41 | the Content-Type sent is `application/json` unless a header pair names Content-Type, in which case the last such pair's value wins |
| HttpUtil.WriteBytesAscii | src/main/util/HttpUtil.java:78 | an ASCII payload is written byte for byte |
| HttpUtil.WriteBytesTruncates | src/main/util/HttpUtil.java:78 | a character above U+00FF loses its high bits (`Ā` is written as byte 0, and `A` and `Ł` are written alike) |

## Left out

- I/O: the model does not send the request. It also does not model the response stream that `getInputStream()` returns, or the network. `Get` and `Post` return whether the request goes ahead; the source instead returns null or the stream.
- Connect: `isValidUrl` (`new URL(url)` succeeding) and the outcome of `new URL(buildUrl(...)).openConnection()` are decided by the JDK's URL parser and protocol handlers. The model takes them as parameters: a predicate, and a function giving one of three outcomes (an `IOException`, an HTTP connection, a connection of another kind).
- Parse: Jackson's `ObjectMapper.readTree` is a parameter, so only the null guard is modelled. The shared `objectMapper` instance is left out.
- BuildUrl: it requires an even-length parameter list. With an odd-length list the source reads past the end of the array and throws `ArrayIndexOutOfBoundsException`; this error path is not modelled. The `UnsupportedEncodingException` branch cannot happen with `"UTF-8"` and is left out.
- Null elements in a parameter or header array are not modelled: the model uses non-null strings. In the source a null parameter makes `URLEncoder.encode` throw a null-reference exception, and so does a null header name in `setRequestProperty`. A null header value is accepted by `setRequestProperty` and stored.
- Operators.StatisticName: Java's string concatenation writes a null statistic as the text `null`, so `getStatisticName(null)` equals `getStatisticName("null")`. The statistic here is a non-null string, so `StatisticNameInjective` and `ParseStatisticNameRoundTrip` hold for non-null statistics only.
- Gamemodes.StatisticName: likewise, a null statistic gives `<token>pvp_null:infinite`, the key of the statistic `"null"`. `StatisticNameIdentifies` holds for non-null statistics only.
- Text.ToLower: does not model the JDK's full Unicode and locale-dependent lower-casing. It covers only the ASCII letters, which is all the constant names contain. Under a Turkish default locale `toLowerCase()` turns `IQ` into `ıq` (dotless i); the model always gives `iq`.
- Text.EqualsIgnoreCase: does not model the Unicode case mapping of `equalsIgnoreCase`. With that mapping the long s `ſ` (U+017F) upper-cases to `S` and so matches `s`: in the source `getByUbiName("ſecurearea")` finds SECURE_AREA, while the model finds nothing. The same goes for the other non-ASCII characters whose case mapping lands on an ASCII letter.
- HttpUtil.Connection.SetRequestProperty: does not model the JDK's case-insensitive comparison of header names. Request properties are an exact-key map.
- HttpUtil.Connection.SetRequestProperty: does not model the JDK silently ignoring restricted headers (`Host`, `Content-Length`, `Connection` with any value other than `close`, and others) unless the `sun.net.http.allowRestrictedHeaders` system property is set. It also does not model the `IllegalArgumentException` for a header name that holds `:` or a line break, or for a header value that holds a line feed not followed by a space or a tab. Every key/value pair is stored as given.
- A connection that is already connected is not modelled: on one, `setRequestMethod` throws `ProtocolException`, and `setRequestProperty`, `setDoOutput` and `setUseCaches` throw `IllegalStateException`.
- FormUrlEncoding.Encode: unpaired UTF-16 surrogates cannot occur in a Dafny string, so the encoder's replacement of them is not modelled.
- The badge URLs, display names and other catalogue columns are modelled as constants. Only the properties listed above are proved about them.
- Thread safety of the shared catalogues is not modelled.

=== FILE: form_encoding.dfy ===
/**
 * The application/x-www-form-urlencoded byte serializer (section 5.2 of the
 * WHATWG URL Standard) as `java.net.URLEncoder.encode(s, "UTF-8")` performs
 * it: ASCII letters, digits and `.`, `-`, `*`, `_` are kept, a space becomes
 * `+`, and every other character becomes `%XX` for each byte of its UTF-8
 * encoding, with upper-case hexadecimal digits.
 *
 * `Decode` is an independent reference decoder, in the manner of
 * `java.net.URLDecoder`, used to state that encoding loses nothing.
 */
module FormUrlEncoding {
  import opened Wrappers

  type Byte = b: int | 0 <= b < 256

  /** The characters the encoder copies unchanged. */
  predicate Unreserved(c: char) {
    'a' <= c <= 'z' || 'A' <= c <= 'Z' || '0' <= c <= '9' || c == '.' || c == '-' || c == '*' || c == '_'
  }

  /** The characters an encoded string is made of. */
  predicate EncodedChar(c: char) {
    Unreserved(c) || c == '+' || c == '%'
  }

  /** UTF-8 (RFC 3629, section 3) of one Unicode scalar value. */
  function Utf8(c: char): (bs: seq<Byte>)
    ensures 1 <= |bs| <= 4
  {
    var n := c as int;
    if n < 0x80 then [n]
    else if n < 0x800 then [0xC0 + n / 64, 0x80 + n % 64]
    else if n < 0x1_0000 then [0xE0 + n / 4096, 0x80 + n / 64 % 64, 0x80 + n % 64]
    else [0xF0 + n / 262144, 0x80 + n / 4096 % 64, 0x80 + n / 64 % 64, 0x80 + n % 64]
  }

  /** The digits the encoder writes in an escape: 0-9 and upper-case A-F. */
  predicate UpperHex(c: char) {
    '0' <= c <= '9' || 'A' <= c <= 'F'
  }

  /** An upper-case hexadecimal digit, as the encoder writes it. */
  function HexDigit(d: int): (c: char)
    requires 0 <= d < 16
    ensures UpperHex(c) && Unreserved(c)
  {
    if d < 10 then ('0' as int + d) as char else ('A' as int + d - 10) as char
  }

  function PercentByte(b: Byte): string {
    ['%', HexDigit(b / 16), HexDigit(b % 16)]
  }

  function PercentBytes(bs: seq<Byte>): (s: string)
    ensures |s| == 3 * |bs|
  {
    if bs == [] then [] else PercentByte(bs[0]) + PercentBytes(bs[1..])
  }

  /** The encoding of one character. */
  function EncodeChar(c: char): (s: string)
    ensures 1 <= |s|
  {
    if Unreserved(c) then [c]
    else if c == ' ' then "+"
    else PercentBytes(Utf8(c))
  }

  /** `URLEncoder.encode(s, "UTF-8")`. */
  function Encode(s: string): (r: string)
    ensures |r| >= |s|
    decreases |s|, 1
  {
    if s == [] then [] else EncodeHead(s)
  }

  /** The encoding of a non-empty string: its first character's, then the rest's. */
  function EncodeHead(s: string): (r: string)
    requires s != []
    ensures |r| >= |s|
    decreases |s|, 0
  {
    EncodeChar(s[0]) + Encode(s[1..])
  }

  // ---------------------------------------------------------------------------
  // The reference decoder

  /** The value of a hexadecimal digit of either case, or -1. */
  function HexValue(c: char): int {
    if '0' <= c <= '9' then c as int - '0' as int
    else if 'A' <= c <= 'F' then c as int - 'A' as int + 10
    else if 'a' <= c <= 'f' then c as int - 'a' as int + 10
    else -1
  }

  /** Reads `k` consecutive `%XX` groups from the start of `s`. */
  function ReadPercentBytes(s: string, k: nat): (r: Option<seq<Byte>>)
    ensures r.Some? ==> |r.value| == k && 3 * k <= |s|
  {
    if k == 0 then Some([])
    else if |s| < 3 || s[0] != '%' || HexValue(s[1]) < 0 || HexValue(s[2]) < 0 then None
    else match ReadPercentBytes(s[3..], k - 1)
      case None => None
      case Some(rest) => Some([HexValue(s[1]) * 16 + HexValue(s[2])] + rest)
  }

  /** How many bytes a UTF-8 sequence has, judged by its first byte; 0 if invalid. */
  function Utf8Length(lead: Byte): nat {
    if lead < 0x80 then 1
    else if 0xC0 <= lead < 0xE0 then 2
    else if 0xE0 <= lead < 0xF0 then 3
    else if 0xF0 <= lead < 0xF8 then 4
    else 0
  }

  predicate Continuation(b: Byte) { 0x80 <= b < 0xC0 }

  // The value bits of two-, three- and four-byte sequences.
  function Utf8Value2(b0: int, b1: int): int {
    (b0 - 0xC0) * 64 + (b1 - 0x80)
  }

  function Utf8Value3(b0: int, b1: int, b2: int): int {
    (b0 - 0xE0) * 4096 + (b1 - 0x80) * 64 + (b2 - 0x80)
  }

  function Utf8Value4(b0: int, b1: int, b2: int, b3: int): int {
    (b0 - 0xF0) * 262144 + (b1 - 0x80) * 4096 + (b2 - 0x80) * 64 + (b3 - 0x80)
  }

  /** The scalar value a well-formed UTF-8 sequence spells, if it is a character. */
  function Utf8Decode(bs: seq<Byte>): Option<char> {
    if |bs| == 0 || Utf8Length(bs[0]) != |bs| then None
    else if exists i :: 1 <= i < |bs| && !Continuation(bs[i]) then None
    else
      var v: int :=
        if |bs| == 1 then bs[0]
        else if |bs| == 2 then Utf8Value2(bs[0], bs[1])
        else if |bs| == 3 then Utf8Value3(bs[0], bs[1], bs[2])
        else Utf8Value4(bs[0], bs[1], bs[2], bs[3]);
      if 0 <= v < 0xD800 || 0xE000 <= v < 0x11_0000 then Some(v as char) else None
  }

  /** Decodes the first character of `s`, with the number of characters it took. */
  function DecodeOne(s: string): (r: Option<(char, nat)>)
    requires s != []
    ensures r.Some? ==> 0 < r.value.1 <= |s|
  {
    if s[0] == '+' then Some((' ', 1))
    else if s[0] != '%' then Some((s[0], 1))
    else match ReadPercentBytes(s, 1)
      case None => None
      case Some(lead) =>
        var k := Utf8Length(lead[0]);
        if k == 0 then None
        else match ReadPercentBytes(s, k)
          case None => None
          case Some(bs) =>
            match Utf8Decode(bs)
            case None => None
            case Some(c) => Some((c, 3 * k))
  }

  /** Decodes a whole form-encoded string, or fails on a malformed one. */
  function Decode(s: string): Option<string>
    decreases |s|
  {
    if s == [] then Some([])
    else match DecodeOne(s)
      case None => None
      case Some((c, n)) =>
        match Decode(s[n..])
        case None => None
        case Some(rest) => Some([c] + rest)
  }

  // ---------------------------------------------------------------------------
  // Properties

  /** The encoding of a non-empty string starts with that of its first character. */
  lemma EncodeCons(s: string)
    requires s != []
    ensures Encode(s) == EncodeChar(s[0]) + Encode(s[1..])
  {
    assert Encode(s) == EncodeHead(s);
  }

  lemma HexRoundTrip(d: int)
    requires 0 <= d < 16
    ensures HexValue(HexDigit(d)) == d
  {
  }

  /** One `%XX` group followed by `t` reads as the byte it was written for. */
  lemma PercentByteRead(b: Byte, t: string)
    ensures var s := PercentByte(b) + t;
      |s| >= 3 && s[0] == '%' && 0 <= HexValue(s[1]) && 0 <= HexValue(s[2]) &&
      HexValue(s[1]) * 16 + HexValue(s[2]) == b && s[3..] == t
  {
    HexRoundTrip(b / 16);
    HexRoundTrip(b % 16);
    var s := PercentByte(b) + t;
    assert s[1] == HexDigit(b / 16) && s[2] == HexDigit(b % 16);
  }

  lemma {:induction false} ReadPercentBytesRoundTrip(bs: seq<Byte>, rest: string)
    ensures ReadPercentBytes(PercentBytes(bs) + rest, |bs|) == Some(bs)
  {
    if bs != [] {
      var b := bs[0];
      var t := PercentBytes(bs[1..]) + rest;
      assert PercentBytes(bs) + rest == PercentByte(b) + t;
      PercentByteRead(b, t);
      ReadPercentBytesRoundTrip(bs[1..], rest);
      assert [b] + bs[1..] == bs;
    }
  }

  /** Reading fewer groups than were written reads a prefix of the bytes. */
  lemma ReadPercentBytesPrefix(bs: seq<Byte>, rest: string)
    requires |bs| >= 1
    ensures ReadPercentBytes(PercentBytes(bs) + rest, 1) == Some(bs[..1])
  {
    var b := bs[0];
    var t := PercentBytes(bs[1..]) + rest;
    assert PercentBytes(bs) + rest == PercentByte(b) + t;
    PercentByteRead(b, t);
    assert bs[..1] == [b] + [];
  }

  /** Decoding the UTF-8 of a character gives the character back. */
  lemma Utf8RoundTrip(c: char)
    ensures Utf8Length(Utf8(c)[0]) == |Utf8(c)|
    ensures Utf8Decode(Utf8(c)) == Some(c)
  {
    var n := c as int;
    var bs := Utf8(c);
    if n < 0x80 {
    } else if n < 0x800 {
      assert bs == [0xC0 + n / 64, 0x80 + n % 64];
      assert Utf8Value2(bs[0], bs[1]) == n by { DivMod64(n); }
    } else if n < 0x1_0000 {
      assert bs == [0xE0 + n / 4096, 0x80 + n / 64 % 64, 0x80 + n % 64];
      assert Utf8Value3(bs[0], bs[1], bs[2]) == n by { DivMod64(n); DivMod64(n / 64); }
    } else {
      assert bs == [0xF0 + n / 262144, 0x80 + n / 4096 % 64, 0x80 + n / 64 % 64, 0x80 + n % 64];
      assert Utf8Value4(bs[0], bs[1], bs[2], bs[3]) == n by {
        DivMod64(n); DivMod64(n / 64); DivMod64(n / 4096);
      }
    }
  }

  lemma DivMod64(n: nat)
    ensures n == n / 64 * 64 + n % 64 && 0 <= n % 64 < 64
    ensures n / 64 / 64 == n / 4096 && n / 4096 / 64 == n / 262144
  {
  }

  lemma DecodeOneEncodeChar(c: char, rest: string)
    ensures DecodeOne(EncodeChar(c) + rest) == Some((c, |EncodeChar(c)|))
  {
    if !Unreserved(c) && c != ' ' {
      var bs := Utf8(c);
      Utf8RoundTrip(c);
      ReadPercentBytesPrefix(bs, rest);
      ReadPercentBytesRoundTrip(bs, rest);
    }
  }

  /** Form-decoding an encoded string gives the string back. */
  lemma {:induction false} DecodeEncode(s: string)
    ensures Decode(Encode(s)) == Some(s)
  {
    if s != [] {
      var e := Encode(s);
      var head := EncodeChar(s[0]);
      EncodeCons(s);
      DecodeOneEncodeChar(s[0], Encode(s[1..]));
      assert e[|head|..] == Encode(s[1..]);
      DecodeEncode(s[1..]);
      assert [s[0]] + s[1..] == s;
    }
  }

  /** So the encoder never maps two strings to one. */
  lemma EncodeInjective(s: string, t: string)
    requires Encode(s) == Encode(t)
    ensures s == t
  {
    DecodeEncode(s);
    DecodeEncode(t);
  }

  /**
   * Escapes come in groups of three: `%` at every position divisible by three,
   * an upper-case hexadecimal digit at every other position.
   */
  lemma {:induction false} PercentBytesAlphabet(bs: seq<Byte>)
    ensures forall i :: 0 <= i < |PercentBytes(bs)| ==>
      if i % 3 == 0 then PercentBytes(bs)[i] == '%' else UpperHex(PercentBytes(bs)[i])
  {
    if bs != [] {
      PercentBytesAlphabet(bs[1..]);
      var head, rest := PercentByte(bs[0]), PercentBytes(bs[1..]);
      assert PercentBytes(bs) == head + rest;
      forall i | 3 <= i < |PercentBytes(bs)|
        ensures if i % 3 == 0 then PercentBytes(bs)[i] == '%' else UpperHex(PercentBytes(bs)[i])
      {
        assert PercentBytes(bs)[i] == rest[i - 3] && (i - 3) % 3 == i % 3;
      }
    }
  }

  /** Encoding writes only unreserved characters, `+` and `%`. */
  lemma {:induction false} EncodeAlphabet(s: string)
    ensures forall i :: 0 <= i < |Encode(s)| ==> EncodedChar(Encode(s)[i])
  {
    if s != [] {
      EncodeAlphabet(s[1..]);
      var head := EncodeChar(s[0]);
      if !Unreserved(s[0]) && s[0] != ' ' {
        PercentBytesAlphabet(Utf8(s[0]));
        assert forall i :: 0 <= i < |head| ==> head[i] == '%' || UpperHex(head[i]);
      }
      assert forall i :: 0 <= i < |head| ==> EncodedChar(head[i]);
      EncodeCons(s);
    }
  }

  /** So an encoded string holds no separator of the query syntax. */
  lemma EncodeHasNoSeparators(s: string)
    ensures '&' !in Encode(s) && '=' !in Encode(s) && ' ' !in Encode(s) && '?' !in Encode(s)
  {
    var e := Encode(s);
    EncodeAlphabet(s);
    forall i | 0 <= i < |e| ensures e[i] != '&' && e[i] != '=' && e[i] != ' ' && e[i] != '?' {
      assert EncodedChar(e[i]);
    }
  }

  /** A string of unreserved characters is its own encoding. */
  lemma {:induction false} EncodeUnreserved(s: string)
    requires forall i :: 0 <= i < |s| ==> Unreserved(s[i])
    ensures Encode(s) == s
  {
    if s != [] {
      EncodeUnreserved(s[1..]);
      EncodeCons(s);
      assert [s[0]] + s[1..] == s;
    }
  }

  lemma EncodeExamples()
    ensures Encode("b c") == "b+c"
    ensures Encode("e&f") == "e%26f"
  {
    EncodeCons("b c");
    EncodeCons(" c");
    EncodeCons("c");
    EncodeCons("e&f");
    EncodeCons("&f");
    EncodeCons("f");
    assert Utf8('&') == [0x26];
  }
}

=== FILE: gamemodes.dfy ===
/**
 * The game-mode catalog: three modes, each with the token the remote
 * statistics service uses for it, a case-insensitive lookup by that token,
 * and the key of a per-mode statistic.
 */
module Gamemodes {
  import opened Wrappers
  import opened Text

  datatype Gamemode = SecureArea | Hostage | Bomb

  /** `getUbiName()`: first constructor argument, the service's token. */
  function UbiName(m: Gamemode): string {
    match m
    case SecureArea => "securearea"
    case Hostage => "rescuehostage"
    case Bomb => "plantbomb"
  }

  /** `getDisplayName()`: second constructor argument. */
  function DisplayName(m: Gamemode): string {
    match m
    case SecureArea => "Secure Area"
    case Hostage => "Hostage Rescue"
    case Bomb => "Bomb"
  }

  /** `values()`: the constants in declaration order. */
  const Values: seq<Gamemode> := [SecureArea, Hostage, Bomb]

  /**
   * The loop of `getByUbiName` over `modes`: the first mode whose token equals
   * `token` ignoring case, or nothing.
   */
  function FindByUbiName(modes: seq<Gamemode>, token: string): (r: Option<Gamemode>)
    ensures r.Some? ==>
      exists k :: 0 <= k < |modes| && modes[k] == r.value &&
                  EqualsIgnoreCase(UbiName(modes[k]), token) &&
                  forall j :: 0 <= j < k ==> !EqualsIgnoreCase(UbiName(modes[j]), token)
    ensures r.None? <==> forall j :: 0 <= j < |modes| ==> !EqualsIgnoreCase(UbiName(modes[j]), token)
  {
    if modes == [] then None
    else if EqualsIgnoreCase(UbiName(modes[0]), token) then Some(modes[0])
    else
      var r := FindByUbiName(modes[1..], token);
      assert forall j :: 1 <= j < |modes| ==> modes[j] == modes[1..][j - 1];
      r
  }

  /**
   * `getByUbiName(token)`: a null token matches nothing, since
   * `equalsIgnoreCase(null)` is false.
   */
  function GetByUbiName(token: Option<string>): Option<Gamemode> {
    match token
    case None => None
    case Some(t) => FindByUbiName(Values, t)
  }

  /**
   * The loop of `getByUbiName` as written: walk `values()` in order and
   * return the first mode whose token matches.
   */
  method ByUbiName(token: Option<string>) returns (r: Option<Gamemode>)
    ensures r == GetByUbiName(token)
  {
    var i := 0;
    while i < |Values|
      invariant 0 <= i <= |Values|
      invariant token.Some? ==> forall j :: 0 <= j < i ==> !EqualsIgnoreCase(UbiName(Values[j]), token.value)
    {
      if token.Some? && EqualsIgnoreCase(UbiName(Values[i]), token.value) {
        return Some(Values[i]);
      }
      i := i + 1;
    }
    return None;
  }

  /** `getStatisticName(statistic)`: the key of a per-mode statistic. */
  function StatisticName(m: Gamemode, statistic: string): string {
    UbiName(m) + "pvp_" + statistic + ":infinite"
  }

  // ---------------------------------------------------------------------------
  // Properties

  /** The tokens are lower case and differ from each other even ignoring case. */
  lemma UbiNamesLowerCaseAndDistinct(a: Gamemode, b: Gamemode)
    ensures IsLowerCase(UbiName(a))
    ensures EqualsIgnoreCase(UbiName(a), UbiName(b)) ==> a == b
  {
    EqualsIgnoreCaseIffSameLower(UbiName(a), UbiName(b));
    assert ToLower(UbiName(a)) == UbiName(a);
    assert ToLower(UbiName(b)) == UbiName(b);
  }

  /** The lookup finds a mode exactly when some token matches. */
  lemma GetByUbiNameSpec(token: Option<string>, m: Gamemode)
    ensures GetByUbiName(token) == Some(m) <==> token.Some? && EqualsIgnoreCase(UbiName(m), token.value)
    ensures GetByUbiName(token).None? <==>
      token.None? || forall n :: !EqualsIgnoreCase(UbiName(n), token.value)
  {
    if token.Some? {
      var t := token.value;
      var r := FindByUbiName(Values, t);
      assert Values[0] == SecureArea && Values[1] == Hostage && Values[2] == Bomb;
      if r.Some? && EqualsIgnoreCase(UbiName(m), t) {
        EqualsIgnoreCaseSymmetric(UbiName(m), t);
        EqualsIgnoreCaseTransitive(UbiName(r.value), t, UbiName(m));
        UbiNamesLowerCaseAndDistinct(r.value, m);
      }
      if r.None? {
        forall n ensures !EqualsIgnoreCase(UbiName(n), t) {
          assert n == Values[0] || n == Values[1] || n == Values[2];
        }
      }
    }
  }

  /** `getByUbiName(m.getUbiName()) == m` for every mode. */
  lemma GetByOwnUbiName(m: Gamemode)
    ensures GetByUbiName(Some(UbiName(m))) == Some(m)
  {
    assert EqualsIgnoreCase(UbiName(m), UbiName(m));
    GetByUbiNameSpec(Some(UbiName(m)), m);
  }

  /** Tokens that differ only in case give the same answer. */
  lemma GetByUbiNameIgnoresCase(t: string, u: string)
    requires EqualsIgnoreCase(t, u)
    ensures GetByUbiName(Some(t)) == GetByUbiName(Some(u))
  {
    EqualsIgnoreCaseSymmetric(t, u);
    forall m ensures EqualsIgnoreCase(UbiName(m), t) <==> EqualsIgnoreCase(UbiName(m), u) {
      if EqualsIgnoreCase(UbiName(m), t) {
        EqualsIgnoreCaseTransitive(UbiName(m), t, u);
      }
      if EqualsIgnoreCase(UbiName(m), u) {
        EqualsIgnoreCaseTransitive(UbiName(m), u, t);
      }
    }
    var r := GetByUbiName(Some(t));
    if r.Some? {
      GetByUbiNameSpec(Some(t), r.value);
      GetByUbiNameSpec(Some(u), r.value);
    } else {
      GetByUbiNameSpec(Some(t), SecureArea);
      GetByUbiNameSpec(Some(u), SecureArea);
    }
  }

  /** A token matches its own mode in any case. */
  lemma GetByUbiNameExamples()
    ensures GetByUbiName(Some("SECUREAREA")) == Some(SecureArea)
    ensures GetByUbiName(Some("securearea")) == Some(SecureArea)
  {
    GetByOwnUbiName(SecureArea);
    assert EqualsIgnoreCase("securearea", "SECUREAREA");
    GetByUbiNameIgnoresCase("securearea", "SECUREAREA");
  }

  /** An unknown token and a null token find nothing. */
  lemma GetByUnknownUbiName()
    ensures GetByUbiName(Some("nonexistent")) == None
    ensures GetByUbiName(None) == None
  {
    forall n ensures !EqualsIgnoreCase(UbiName(n), "nonexistent") {
      assert |UbiName(n)| != |"nonexistent"|;
    }
    GetByUbiNameSpec(Some("nonexistent"), SecureArea);
  }

  lemma StatisticNameExample()
    ensures StatisticName(Bomb, "kills") == "plantbombpvp_kills:infinite"
  {
  }

  /** Each token starts with its own letter. */
  lemma UbiNameFirstLetter(a: Gamemode, b: Gamemode)
    ensures |UbiName(a)| > 0
    ensures UbiName(a)[0] == UbiName(b)[0] ==> a == b
  {
  }

  /**
   * A mode's statistic key is the token, "pvp_", the statistic and
   * ":infinite"; it determines both the mode and the statistic.
   */
  lemma StatisticNameIdentifies(a: Gamemode, s: string, b: Gamemode, t: string)
    ensures StartsWith(StatisticName(a, s), UbiName(a) + "pvp_")
    ensures EndsWith(StatisticName(a, s), ":infinite")
    ensures StatisticName(a, s) == StatisticName(b, t) ==> a == b && s == t
  {
    FourParts(UbiName(a), "pvp_", s, ":infinite");
    if StatisticName(a, s) == StatisticName(b, t) {
      FourParts(UbiName(b), "pvp_", t, ":infinite");
      UbiNameFirstLetter(a, b);
      UbiNameFirstLetter(b, a);
      SamePrefix(UbiName(a) + "pvp_", s + ":infinite", UbiName(b) + "pvp_", t + ":infinite");
      SamePrefix(s, ":infinite", t, ":infinite");
    }
  }
}

=== FILE: http_util.dfy ===
/**
 * The request side of the HTTP helper: building the request URL, the input
 * checks `connect`, `get` and `post` make before touching anything, and the
 * request settings `get` and `post` apply to a connection.
 *
 * A connection is the part of an `HttpURLConnection` these operations
 * change: its request method, its request properties (a map from header
 * name to value, where setting a name again replaces its value), the
 * `doOutput` and `useCaches` flags, and the bytes written to its output
 * stream. Whether a URL is well formed and what opening a connection gives
 * are decided by the Java library; they are parameters here.
 */
module HttpUtil {
  import opened Wrappers
  import FormUrlEncoding
  import Query

  type Byte = FormUrlEncoding.Byte

  const ContentType := "Content-Type"
  const ApplicationJson := "application/json"

  class Connection {
    /** The URL the connection was opened on. */
    const url: string
    var requestMethod: string
    var requestProperties: map<string, string>
    var doOutput: bool
    var useCaches: bool
    /** Everything written to the request body so far. */
    var body: seq<Byte>

    /** A freshly opened connection, with the library's defaults. */
    constructor (url: string)
      ensures this.url == url && requestMethod == "GET" && requestProperties == map[]
      ensures !doOutput && useCaches && body == []
    {
      this.url := url;
      requestMethod := "GET";
      requestProperties := map[];
      doOutput := false;
      useCaches := true;
      body := [];
    }

    /** `setRequestProperty(key, value)`: replaces any value `key` had. */
    method SetRequestProperty(key: string, value: string)
      modifies this`requestProperties
      ensures requestProperties == old(requestProperties)[key := value]
    {
      requestProperties := requestProperties[key := value];
    }
  }

  // ---------------------------------------------------------------------------
  // buildUrl

  /**
   * `buildUrl(url, parameterList)`: the URL, `?`, and the form-encoded
   * `key=value` pairs joined with `&`. The list must have even length: the
   * loop reads `parameterList[i + 1]` for every even `i`.
   */
  method BuildUrl(url: string, ps: seq<string>) returns (r: string)
    requires |ps| % 2 == 0
    ensures r == url + "?" + Query.QueryString(ps)
  {
    // The joiner's contents: nothing until the first element is added.
    var joined: Option<string> := None;
    var i := 0;
    while i < |ps|
      invariant 0 <= i <= |ps| && i % 2 == 0
      invariant joined.None? <==> i == 0
      invariant joined.Some? ==> joined.value == Query.QueryString(ps[..i])
    {
      joined := AddPair(joined, ps, i);
      i := i + 2;
    }
    assert ps[..|ps|] == ps;
    r := url + "?" + if joined.None? then "" else joined.value;
  }

  /**
   * One turn of the `buildUrl` loop: the pair at `i`, encoded as
   * `key=value`, added to the joiner that holds the pairs before it.
   */
  method AddPair(joined: Option<string>, ps: seq<string>, i: nat) returns (next: Option<string>)
    requires i + 2 <= |ps| && i % 2 == 0 && |ps| % 2 == 0
    requires joined.None? <==> i == 0
    requires joined.Some? ==> joined.value == Query.QueryString(ps[..i])
    ensures next.Some? && next.value == Query.QueryString(ps[..i + 2])
  {
    var element := FormUrlEncoding.Encode(ps[i]) + "=" + FormUrlEncoding.Encode(ps[i + 1]);
    assert element == Query.Segment(ps[i], ps[i + 1]);
    JoinStep(ps, i);
    if joined.None? {
      next := Some(element);
    } else {
      next := Some(joined.value + "&" + element);
    }
  }

  /** Adding the pair at `i` to the joiner extends the query string of `ps[..i]`. */
  lemma JoinStep(ps: seq<string>, i: nat)
    requires i + 2 <= |ps| && i % 2 == 0 && |ps| % 2 == 0
    ensures var element := Query.Segment(ps[i], ps[i + 1]);
      Query.QueryString(ps[..i + 2]) ==
        if i == 0 then element else Query.QueryString(ps[..i]) + "&" + element
  {
    Query.SegmentsPrefix(ps, i);
    Query.JoinAppend(Query.Segments(ps[..i]), Query.Segment(ps[i], ps[i + 1]), '&');
  }

  // ---------------------------------------------------------------------------
  // connect

  /**
   * What `new URL(target).openConnection()` does, as the Java library decides
   * it: it throws an `IOException`, or it opens an `HttpURLConnection`, or it
   * opens a connection of another kind (a `file:` or `jar:` URL, say).
   */
  datatype Opening = OpenFails | OpensHttp | OpensOther

  /**
   * `connect(url, parameters)`: nothing for an odd-length parameter list, a
   * null or empty URL or one the URL parser rejects, or when opening the
   * built URL throws an `IOException`; the connection opened on the built
   * URL when it is an HTTP connection. When it is not, the cast to
   * `HttpURLConnection` throws a `ClassCastException`, modelled as
   * `castFails` with no connection.
   */
  method Connect(url: Option<string>, ps: seq<string>,
                 isValidUrl: string -> bool, opening: string -> Opening)
    returns (c: Connection?, castFails: bool)
    ensures var proceeds := |ps| % 2 == 0 && url.Some? && url.value != "" && isValidUrl(url.value);
      && (castFails <==> proceeds && opening(url.value + "?" + Query.QueryString(ps)) == OpensOther)
      && (c != null <==> proceeds && opening(url.value + "?" + Query.QueryString(ps)) == OpensHttp)
    ensures c != null ==> fresh(c) && c.url == url.value + "?" + Query.QueryString(ps)
    ensures c != null ==> c.requestMethod == "GET" && c.requestProperties == map[]
  {
    castFails := false;
    if |ps| % 2 != 0 {
      return null, false;
    }
    if url.None? || url.value == "" || !isValidUrl(url.value) {
      return null, false;
    }
    var target := BuildUrl(url.value, ps);
    match opening(target)
    case OpenFails =>
      return null, false;
    case OpensOther =>
      return null, true;
    case OpensHttp =>
      c := new Connection(target);
  }

  // ---------------------------------------------------------------------------
  // get and post

  /**
   * The request properties after setting each header pair of `hs`, in order,
   * on top of `m`.
   */
  function Applied(m: map<string, string>, hs: seq<string>): map<string, string>
    requires |hs| % 2 == 0
  {
    if hs == [] then m
    else Applied(m, hs[..|hs| - 2])[hs[|hs| - 2] := hs[|hs| - 1]]
  }

  /** The name and the value of the `j`-th header pair. */
  function HeaderName(hs: seq<string>, j: nat): string
    requires j < |hs| / 2
  {
    hs[2 * j]
  }

  function HeaderValue(hs: seq<string>, j: nat): string
    requires j < |hs| / 2
  {
    hs[2 * j + 1]
  }

  /** The `j`-th pair is the last one that sets `key`. */
  predicate LastNaming(hs: seq<string>, j: nat, key: string) {
    j < |hs| / 2 && HeaderName(hs, j) == key &&
    forall l :: j < l < |hs| / 2 ==> HeaderName(hs, l) != key
  }

  /** The loop of `get` and `post` that sets the caller's headers in order. */
  method SetHeaders(c: Connection, hs: seq<string>)
    requires |hs| % 2 == 0
    modifies c`requestProperties
    ensures c.requestProperties == Applied(old(c.requestProperties), hs)
  {
    var i := 0;
    while i < |hs|
      invariant 0 <= i <= |hs| && i % 2 == 0
      invariant c.requestProperties == Applied(old(c.requestProperties), hs[..i])
    {
      c.SetRequestProperty(hs[i], hs[i + 1]);
      assert hs[..i + 2][..i] == hs[..i];
      i := i + 2;
    }
    assert hs[..|hs|] == hs;
  }

  /**
   * `get(connection, headers)`: with a connection and an even header list,
   * sets the method to GET, `Content-Type` to `application/json`, then each
   * header pair in order, and turns output on and caching off before the
   * request is sent (sending and reading are not modelled). Otherwise it
   * leaves everything as it was and returns null, modelled as `false`.
   */
  method Get(c: Connection?, headers: seq<string>) returns (sent: bool)
    modifies c
    ensures sent <==> c != null && |headers| % 2 == 0
    ensures c != null && !sent ==> unchanged(c)
    ensures sent ==> c.requestMethod == "GET" && c.doOutput && !c.useCaches
    ensures sent ==>
              c.requestProperties ==
              Applied(old(c.requestProperties)[ContentType := ApplicationJson], headers)
    ensures sent ==> c.body == old(c.body)
  {
    if c == null {
      return false;
    }
    if |headers| % 2 != 0 {
      return false;
    }
    c.requestMethod := "GET";
    c.SetRequestProperty(ContentType, ApplicationJson);
    SetHeaders(c, headers);
    c.doOutput := true;
    c.useCaches := false;
    sent := true;
  }

  /**
   * The bytes `DataOutputStream.writeBytes(s)` writes: for each UTF-16 code
   * unit of `s`, its low eight bits. A character beyond U+FFFF is two code
   * units, a surrogate pair.
   */
  function WriteBytes(s: string): (bs: seq<Byte>)
    ensures |bs| >= |s|
  {
    if s == [] then []
    else
      var n := s[0] as int;
      var units := if n < 0x1_0000 then [n]
                   else [0xD800 + (n - 0x1_0000) / 1024, 0xDC00 + (n - 0x1_0000) % 1024];
      seq(|units|, i requires 0 <= i < |units| => units[i] % 256) + WriteBytes(s[1..])
  }

  /**
   * `post(connection, payload, headers)`: like `get` with method POST, and a
   * payload is required; the payload's bytes are written to the request body.
   */
  method Post(c: Connection?, payload: Option<string>, headers: seq<string>) returns (sent: bool)
    modifies c
    ensures sent <==> c != null && payload.Some? && |headers| % 2 == 0
    ensures c != null && !sent ==> unchanged(c)
    ensures sent ==> c.requestMethod == "POST" && c.doOutput && !c.useCaches
    ensures sent ==>
              c.requestProperties ==
              Applied(old(c.requestProperties)[ContentType := ApplicationJson], headers)
    ensures sent ==> c.body == old(c.body) + WriteBytes(payload.value)
  {
    if c == null {
      return false;
    }
    if payload.None? {
      return false;
    }
    if |headers| % 2 != 0 {
      return false;
    }
    c.requestMethod := "POST";
    c.SetRequestProperty(ContentType, ApplicationJson);
    SetHeaders(c, headers);
    c.doOutput := true;
    c.useCaches := false;
    c.body := c.body + WriteBytes(payload.value);
    sent := true;
  }

  // ---------------------------------------------------------------------------
  // parse

  /**
   * `parse(input)`: null for a null stream, otherwise whatever the JSON reader
   * makes of the bytes (null when it fails).
   */
  function Parse<J>(input: Option<seq<Byte>>, readTree: seq<Byte> -> Option<J>): (r: Option<J>)
    ensures input.None? ==> r.None?
  {
    match input
    case None => None
    case Some(bytes) => readTree(bytes)
  }

  // ---------------------------------------------------------------------------
  // Properties of the request properties

  /** After the header pairs are applied, a name is present exactly when it was before or some pair sets it. */
  lemma {:induction false} AppliedHas(m: map<string, string>, hs: seq<string>, key: string)
    requires |hs| % 2 == 0
    ensures key in Applied(m, hs) <==>
      key in m || exists j :: 0 <= j < |hs| / 2 && HeaderName(hs, j) == key
  {
    if hs != [] {
      var n := |hs| / 2 - 1;
      var front := hs[..|hs| - 2];
      AppliedHas(m, front, key);
      assert forall j :: 0 <= j < n ==> HeaderName(front, j) == HeaderName(hs, j);
      assert HeaderName(hs, n) == hs[|hs| - 2];
    }
  }

  /** A name set by some pair has the value of the last pair that sets it. */
  lemma {:induction false} AppliedLast(m: map<string, string>, hs: seq<string>, key: string, j: nat)
    requires |hs| % 2 == 0 && LastNaming(hs, j, key)
    ensures key in Applied(m, hs) && Applied(m, hs)[key] == HeaderValue(hs, j)
  {
    var n := |hs| / 2 - 1;
    var front := hs[..|hs| - 2];
    if j < n {
      assert HeaderName(hs, n) == hs[|hs| - 2];
      assert forall l :: 0 <= l < n ==> HeaderName(front, l) == HeaderName(hs, l);
      assert LastNaming(front, j, key);
      AppliedLast(m, front, key, j);
      assert HeaderValue(front, j) == HeaderValue(hs, j);
    }
  }

  /** A name no pair sets keeps its old value. */
  lemma {:induction false} AppliedKeeps(m: map<string, string>, hs: seq<string>, key: string)
    requires |hs| % 2 == 0 && key in m
    requires forall j :: 0 <= j < |hs| / 2 ==> HeaderName(hs, j) != key
    ensures key in Applied(m, hs) && Applied(m, hs)[key] == m[key]
  {
    if hs != [] {
      var n := |hs| / 2 - 1;
      var front := hs[..|hs| - 2];
      assert HeaderName(hs, n) == hs[|hs| - 2];
      assert forall l :: 0 <= l < n ==> HeaderName(front, l) == HeaderName(hs, l);
      AppliedKeeps(m, front, key);
    }
  }

  /**
   * The `Content-Type` that `get` and `post` send: that of the last header
   * pair naming it, or `application/json` when no pair does.
   */
  lemma ContentTypeSent(m: map<string, string>, hs: seq<string>)
    requires |hs| % 2 == 0
    ensures var props := Applied(m[ContentType := ApplicationJson], hs);
      ContentType in props &&
      ((forall j :: 0 <= j < |hs| / 2 ==> HeaderName(hs, j) != ContentType) ==>
        props[ContentType] == ApplicationJson) &&
      (forall j :: LastNaming(hs, j, ContentType) ==> props[ContentType] == HeaderValue(hs, j))
  {
    var m' := m[ContentType := ApplicationJson];
    AppliedHas(m', hs, ContentType);
    if forall j :: 0 <= j < |hs| / 2 ==> HeaderName(hs, j) != ContentType {
      AppliedKeeps(m', hs, ContentType);
    }
    forall j | LastNaming(hs, j, ContentType)
      ensures Applied(m', hs)[ContentType] == HeaderValue(hs, j)
    {
      AppliedLast(m', hs, ContentType, j);
    }
  }

  /** A payload of ASCII characters is written byte for byte. */
  lemma {:induction false} WriteBytesAscii(s: string)
    requires forall i :: 0 <= i < |s| ==> s[i] as int < 0x80
    ensures |WriteBytes(s)| == |s|
    ensures forall i :: 0 <= i < |s| ==> WriteBytes(s)[i] == s[i] as int
  {
    if s != [] {
      WriteBytesAscii(s[1..]);
      assert WriteBytes(s) == [s[0] as int] + WriteBytes(s[1..]);
    }
  }

  /** Characters outside ISO-8859-1 lose their high bits: U+0100 is written as 0. */
  lemma WriteBytesTruncates()
    ensures WriteBytes("Ā") == [0] && WriteBytes("A") == WriteBytes("Ł")
  {
  }
}

=== FILE: operators.dfy ===
/**
 * The operator catalog: forty playable characters, each with the tokens the
 * remote statistics service uses to name that character's statistics.
 *
 * The Java enum becomes a datatype of nullary constructors, one per enum
 * constant in declaration order, and one function per constructor argument
 * giving the value written beside each constant; these functions are the
 * getters, and being functions of the constant they can never change. The
 * derived `id` is a function of the constant's name.
 */
module Operators {
  import opened Wrappers
  import opened Text

  datatype Operator =
    Smoke | Mute | Sledge | Thatcher | Castle | Ash | Pulse | Thermite |
    Doc | Rook | Twitch | Montagne | Glaz | Fuze | Kapkan | Tachanka |
    Blitz | Iq | Jager | Bandit | Buck | Frost | Blackbeard | Valkyrie |
    Capitao | Caveira | Hibana | Echo | Jackal | Mira | Ying | Lesion |
    Ela | Zofia | Vigil | Dokkaebi | Lion | Finka | Maestro | Alibi

  // The enum declaration, one column per constructor argument.

  /** The enum constant's name, as `name()` returns it. */
  function Name(op: Operator): string {
    match op
    case Smoke => "SMOKE"
    case Mute => "MUTE"
    case Sledge => "SLEDGE"
    case Thatcher => "THATCHER"
    case Castle => "CASTLE"
    case Ash => "ASH"
    case Pulse => "PULSE"
    case Thermite => "THERMITE"
    case Doc => "DOC"
    case Rook => "ROOK"
    case Twitch => "TWITCH"
    case Montagne => "MONTAGNE"
    case Glaz => "GLAZ"
    case Fuze => "FUZE"
    case Kapkan => "KAPKAN"
    case Tachanka => "TACHANKA"
    case Blitz => "BLITZ"
    case Iq => "IQ"
    case Jager => "JAGER"
    case Bandit => "BANDIT"
    case Buck => "BUCK"
    case Frost => "FROST"
    case Blackbeard => "BLACKBEARD"
    case Valkyrie => "VALKYRIE"
    case Capitao => "CAPITAO"
    case Caveira => "CAVEIRA"
    case Hibana => "HIBANA"
    case Echo => "ECHO"
    case Jackal => "JACKAL"
    case Mira => "MIRA"
    case Ying => "YING"
    case Lesion => "LESION"
    case Ela => "ELA"
    case Zofia => "ZOFIA"
    case Vigil => "VIGIL"
    case Dokkaebi => "DOKKAEBI"
    case Lion => "LION"
    case Finka => "FINKA"
    case Maestro => "MAESTRO"
    case Alibi => "ALIBI"
  }
  /** First constructor argument: the name shown to users. */
  function DisplayName(op: Operator): string {
    match op
    case Smoke => "Smoke"
    case Mute => "Mute"
    case Sledge => "Sledge"
    case Thatcher => "Thatcher"
    case Castle => "Castle"
    case Ash => "Ash"
    case Pulse => "Pulse"
    case Thermite => "Thermite"
    case Doc => "Doc"
    case Rook => "Rook"
    case Twitch => "Twitch"
    case Montagne => "Montagne"
    case Glaz => "Glaz"
    case Fuze => "Fuze"
    case Kapkan => "Kapkan"
    case Tachanka => "Tachanka"
    case Blitz => "Blitz"
    case Iq => "IQ"
    case Jager => "Jäger"
    case Bandit => "Bandit"
    case Buck => "Buck"
    case Frost => "Frost"
    case Blackbeard => "Blackbeard"
    case Valkyrie => "Valkyrie"
    case Capitao => "Capitão"
    case Caveira => "Caveira"
    case Hibana => "Hibana"
    case Echo => "Echo"
    case Jackal => "Jackal"
    case Mira => "Mira"
    case Ying => "Ying"
    case Lesion => "Lesion"
    case Ela => "Ela"
    case Zofia => "Zofia"
    case Vigil => "Vigil"
    case Dokkaebi => "Dokkaebi"
    case Lion => "Lion"
    case Finka => "Finka"
    case Maestro => "Maestro"
    case Alibi => "Alibi"
  }
  /** Second constructor argument: "atk" or "def". */
  function Category(op: Operator): string {
    match op
    case Smoke => "def"
    case Mute => "def"
    case Sledge => "atk"
    case Thatcher => "atk"
    case Castle => "def"
    case Ash => "atk"
    case Pulse => "def"
    case Thermite => "atk"
    case Doc => "def"
    case Rook => "def"
    case Twitch => "atk"
    case Montagne => "atk"
    case Glaz => "atk"
    case Fuze => "atk"
    case Kapkan => "def"
    case Tachanka => "def"
    case Blitz => "atk"
    case Iq => "atk"
    case Jager => "def"
    case Bandit => "def"
    case Buck => "atk"
    case Frost => "def"
    case Blackbeard => "atk"
    case Valkyrie => "def"
    case Capitao => "atk"
    case Caveira => "def"
    case Hibana => "atk"
    case Echo => "def"
    case Jackal => "atk"
    case Mira => "def"
    case Ying => "atk"
    case Lesion => "def"
    case Ela => "def"
    case Zofia => "atk"
    case Vigil => "def"
    case Dokkaebi => "atk"
    case Lion => "atk"
    case Finka => "atk"
    case Maestro => "def"
    case Alibi => "def"
  }
  /** Third constructor argument: the service's index token for the operator. */
  function Index(op: Operator): string {
    match op
    case Smoke => "2:1"
    case Mute => "3:1"
    case Sledge => "4:1"
    case Thatcher => "5:1"
    case Castle => "2:2"
    case Ash => "3:2"
    case Pulse => "4:2"
    case Thermite => "5:2"
    case Doc => "2:3"
    case Rook => "3:3"
    case Twitch => "4:3"
    case Montagne => "5:3"
    case Glaz => "2:4"
    case Fuze => "3:4"
    case Kapkan => "4:4"
    case Tachanka => "5:4"
    case Blitz => "2:5"
    case Iq => "3:5"
    case Jager => "4:5"
    case Bandit => "5:5"
    case Buck => "2:6"
    case Frost => "3:6"
    case Blackbeard => "2:7"
    case Valkyrie => "3:7"
    case Capitao => "2:8"
    case Caveira => "3:8"
    case Hibana => "2:9"
    case Echo => "3:9"
    case Jackal => "2:A"
    case Mira => "3:A"
    case Ying => "2:B"
    case Lesion => "3:B"
    case Ela => "2:C"
    case Zofia => "3:C"
    case Vigil => "2:D"
    case Dokkaebi => "3:D"
    case Lion => "3:E"
    case Finka => "4:E"
    case Maestro => "2:F"
    case Alibi => "3:F"
  }
  /** Fourth constructor argument: the token of the operator's gadget statistic. */
  function Gadget(op: Operator): string {
    match op
    case Smoke => "poisongaskill"
    case Mute => "gadgetjammed"
    case Sledge => "hammerhole"
    case Thatcher => "gadgetdestroywithemp"
    case Castle => "kevlarbarricadedeployed"
    case Ash => "bonfirewallbreached"
    case Pulse => "heartbeatspot"
    case Thermite => "reinforcementbreached"
    case Doc => "teammaterevive"
    case Rook => "armortakenteammate"
    case Twitch => "gadgetdestroybyshockdrone"
    case Montagne => "shieldblockdamage"
    case Glaz => "sniperkill"
    case Fuze => "clusterchargekill"
    case Kapkan => "boobytrapkill"
    case Tachanka => "turretkill"
    case Blitz => "flashedenemy"
    case Iq => "gadgetspotbyef"
    case Jager => "gadgetdestroybycatcher"
    case Bandit => "batterykill"
    case Buck => "buck_kill"
    case Frost => "frost_dbno"
    case Blackbeard => "gunshieldblockdamage"
    case Valkyrie => "camdeployed"
    case Capitao => "lethaldartkills"
    case Caveira => "interrogations"
    case Hibana => "detonate_projectile"
    case Echo => "enemy_sonicburst_affected"
    case Jackal => "cazador_assist_kill"
    case Mira => "black_mirror_gadget_deployed"
    case Ying => "dazzler_gadget_detonate"
    case Lesion => "caltrop_enemy_affected"
    case Ela => "concussionmine_detonate"
    case Zofia => "concussiongrenade_detonate"
    case Vigil => "attackerdrone_diminishedrealitymode"
    case Dokkaebi => "phoneshacked"
    case Lion => "tagger_tagdevice_spot"
    case Finka => "rush_adrenalinerush"
    case Maestro => "killswithturret"
    case Alibi => "revealedattackers"
  }
  /** Fifth constructor argument: the badge image location. */
  function BadgeUrl(op: Operator): string {
    match op
    case Smoke => "https://ubistatic-a.akamaihd.net/0058/prod/assets/images/badge-smoke.874e9888.png"
    case Mute => "https://ubistatic-a.akamaihd.net/0058/prod/assets/images/badge-mute.3e4f2b01.png"
    case Sledge => "https://ubistatic-a.akamaihd.net/0058/prod/assets/images/badge-sledge.00141f92.png"
    case Thatcher => "https://ubistatic-a.akamaihd.net/0058/prod/assets/images/badge-thatcher.b1cac8e7.png"
    case Castle => "https://ubistatic-a.akamaihd.net/0058/prod/assets/images/badge-castle.378f8f4e.png"
    case Ash => "https://ubistatic-a.akamaihd.net/0058/prod/assets/images/badge-ash.16913d82.png"
    case Pulse => "https://ubistatic-a.akamaihd.net/0058/prod/assets/images/badge-pulse.9de627c5.png"
    case Thermite => "https://ubistatic-a.akamaihd.net/0058/prod/assets/images/badge-thermite.9010fa33.png"
    case Doc => "https://ubistatic-a.akamaihd.net/0058/prod/assets/images/badge-doc.29fe751b.png"
    case Rook => "https://ubistatic-a.akamaihd.net/0058/prod/assets/images/badge-rook.eb954a4e.png"
    case Twitch => "https://ubistatic-a.akamaihd.net/0058/prod/assets/images/badge-twitch.83cbfa97.png"
    case Montagne => "https://ubistatic-a.akamaihd.net/0058/prod/assets/images/badge-montagne.2078ee84.png"
    case Glaz => "https://ubistatic-a.akamaihd.net/0058/prod/assets/images/badge-glaz.43dd3bdf.png"
    case Fuze => "https://ubistatic-a.akamaihd.net/0058/prod/assets/images/badge-fuze.9e7e9222.png"
    case Kapkan => "https://ubistatic-a.akamaihd.net/0058/prod/assets/images/badge-kapkan.562d0701.png"
    case Tachanka => "https://ubistatic-a.akamaihd.net/0058/prod/assets/images/badge-tachanka.ae7943f0.png"
    case Blitz => "https://ubistatic-a.akamaihd.net/0058/prod/assets/images/badge-blitz.cd45df08.png"
    case Iq => "https://ubistatic-a.akamaihd.net/0058/prod/assets/images/badge-iq.b1acee1a.png"
    case Jager => "https://ubistatic-a.akamaihd.net/0058/prod/assets/images/badge-jager.600b2773.png"
    case Bandit => "https://ubistatic-a.akamaihd.net/0058/prod/assets/images/badge-bandit.385144d9.png"
    case Buck => "https://ubistatic-a.akamaihd.net/0058/prod/assets/images/badge-buck.2fc3e097.png"
    case Frost => "https://ubistatic-a.akamaihd.net/0058/prod/assets/images/badge-frost.e5362220.png"
    case Blackbeard => "https://ubistatic-a.akamaihd.net/0058/prod/assets/images/badge-blackbeard.fccd7e2c.png"
    case Valkyrie => "https://ubistatic-a.akamaihd.net/0058/prod/assets/images/badge-valkyrie.f87cb6bd.png"
    case Capitao => "https://ubistatic-a.akamaihd.net/0058/prod/assets/images/badge-capitao.6603e417.png"
    case Caveira => "https://ubistatic-a.akamaihd.net/0058/prod/assets/images/badge-caveira.757e9259.png"
    case Hibana => "https://ubistatic-a.akamaihd.net/0058/prod/assets/images/badge-hibana.c2a8477d.png"
    case Echo => "https://ubistatic-a.akamaihd.net/0058/prod/assets/images/badge-echo.a77c7d7e.png"
    case Jackal => "https://ubistatic-a.akamaihd.net/0058/prod/assets/images/badge-jackal.0326ca29.png"
    case Mira => "https://ubistatic-a.akamaihd.net/0058/prod/assets/images/badge-mira.22fb72a5.png"
    case Ying => "https://ubistatic-a.akamaihd.net/0058/prod/assets/images/badge-ying.b88be612.png"
    case Lesion => "https://ubistatic-a.akamaihd.net/0058/prod/assets/images/badge-lesion.07c3d352.png"
    case Ela => "https://ubistatic-a.akamaihd.net/0058/prod/assets/images/badge-ela.63ec2d26.png"
    case Zofia => "https://ubistatic-a.akamaihd.net/0058/prod/assets/images/badge-zofia.2a892bf5.png"
    case Vigil => "https://ubistatic-a.akamaihd.net/0058/prod/assets/images/badge-vigil.4db5385b.png"
    case Dokkaebi => "https://ubistatic-a.akamaihd.net/0058/prod/assets/images/badge-dokkaebi.2f83a34f.png"
    case Lion => "https://ubistatic-a.akamaihd.net/0058/prod/assets/images/badge-lion.69637075.png"
    case Finka => "https://ubistatic-a.akamaihd.net/0058/prod/assets/images/badge-finka.71d3a243.png"
    case Maestro => "https://ubistatic-a.akamaihd.net/0058/prod/assets/images/badge-maestro.b6cf7905.png"
    case Alibi => "https://ubistatic-a.akamaihd.net/0058/prod/assets/images/badge-alibi.7fba8d33.png"
  }
  /**
   * `getId()`: the enum constructor derives `id` once, as the lower case of
   * the constant's name (not of its display name).
   */
  function Id(op: Operator): string {
    ToLower(Name(op))
  }

  /** `ordinal()`: the position of the constant in the declaration. */
  function Ordinal(op: Operator): nat {
    match op
    case Smoke => 0
    case Mute => 1
    case Sledge => 2
    case Thatcher => 3
    case Castle => 4
    case Ash => 5
    case Pulse => 6
    case Thermite => 7
    case Doc => 8
    case Rook => 9
    case Twitch => 10
    case Montagne => 11
    case Glaz => 12
    case Fuze => 13
    case Kapkan => 14
    case Tachanka => 15
    case Blitz => 16
    case Iq => 17
    case Jager => 18
    case Bandit => 19
    case Buck => 20
    case Frost => 21
    case Blackbeard => 22
    case Valkyrie => 23
    case Capitao => 24
    case Caveira => 25
    case Hibana => 26
    case Echo => 27
    case Jackal => 28
    case Mira => 29
    case Ying => 30
    case Lesion => 31
    case Ela => 32
    case Zofia => 33
    case Vigil => 34
    case Dokkaebi => 35
    case Lion => 36
    case Finka => 37
    case Maestro => 38
    case Alibi => 39
  }

  /** The constant at position `n` of the declaration, for `n < 40`. */
  function FromOrdinal(n: nat): Option<Operator> {
    match n
    case 0 => Some(Smoke)
    case 1 => Some(Mute)
    case 2 => Some(Sledge)
    case 3 => Some(Thatcher)
    case 4 => Some(Castle)
    case 5 => Some(Ash)
    case 6 => Some(Pulse)
    case 7 => Some(Thermite)
    case 8 => Some(Doc)
    case 9 => Some(Rook)
    case 10 => Some(Twitch)
    case 11 => Some(Montagne)
    case 12 => Some(Glaz)
    case 13 => Some(Fuze)
    case 14 => Some(Kapkan)
    case 15 => Some(Tachanka)
    case 16 => Some(Blitz)
    case 17 => Some(Iq)
    case 18 => Some(Jager)
    case 19 => Some(Bandit)
    case 20 => Some(Buck)
    case 21 => Some(Frost)
    case 22 => Some(Blackbeard)
    case 23 => Some(Valkyrie)
    case 24 => Some(Capitao)
    case 25 => Some(Caveira)
    case 26 => Some(Hibana)
    case 27 => Some(Echo)
    case 28 => Some(Jackal)
    case 29 => Some(Mira)
    case 30 => Some(Ying)
    case 31 => Some(Lesion)
    case 32 => Some(Ela)
    case 33 => Some(Zofia)
    case 34 => Some(Vigil)
    case 35 => Some(Dokkaebi)
    case 36 => Some(Lion)
    case 37 => Some(Finka)
    case 38 => Some(Maestro)
    case 39 => Some(Alibi)
    case _ => None
  }

  /** `getGadgetStatisticQuery()`: the key of the operator's gadget statistic. */
  function GadgetStatisticQuery(op: Operator): string {
    "operatorpvp_" + Id(op) + "_" + Gadget(op) + ":" + Index(op)
  }

  /** `getStatisticName(statistic)`: the key of a per-operator statistic. */
  function StatisticName(op: Operator, statistic: string): string {
    "operatorpvp_" + statistic + ":" + Index(op) + ":infinite"
  }

  // ---------------------------------------------------------------------------
  // Reading keys back, used to state that the keys identify what they name

  /** The constant whose index token has this row digit and column, if any. */
  function IndexOwner(row: char, column: char): Option<Operator> {
    match (row, column)
    case ('2', '1') => Some(Smoke)
    case ('3', '1') => Some(Mute)
    case ('4', '1') => Some(Sledge)
    case ('5', '1') => Some(Thatcher)
    case ('2', '2') => Some(Castle)
    case ('3', '2') => Some(Ash)
    case ('4', '2') => Some(Pulse)
    case ('5', '2') => Some(Thermite)
    case ('2', '3') => Some(Doc)
    case ('3', '3') => Some(Rook)
    case ('4', '3') => Some(Twitch)
    case ('5', '3') => Some(Montagne)
    case ('2', '4') => Some(Glaz)
    case ('3', '4') => Some(Fuze)
    case ('4', '4') => Some(Kapkan)
    case ('5', '4') => Some(Tachanka)
    case ('2', '5') => Some(Blitz)
    case ('3', '5') => Some(Iq)
    case ('4', '5') => Some(Jager)
    case ('5', '5') => Some(Bandit)
    case ('2', '6') => Some(Buck)
    case ('3', '6') => Some(Frost)
    case ('2', '7') => Some(Blackbeard)
    case ('3', '7') => Some(Valkyrie)
    case ('2', '8') => Some(Capitao)
    case ('3', '8') => Some(Caveira)
    case ('2', '9') => Some(Hibana)
    case ('3', '9') => Some(Echo)
    case ('2', 'A') => Some(Jackal)
    case ('3', 'A') => Some(Mira)
    case ('2', 'B') => Some(Ying)
    case ('3', 'B') => Some(Lesion)
    case ('2', 'C') => Some(Ela)
    case ('3', 'C') => Some(Zofia)
    case ('2', 'D') => Some(Vigil)
    case ('3', 'D') => Some(Dokkaebi)
    case ('3', 'E') => Some(Lion)
    case ('4', 'E') => Some(Finka)
    case ('2', 'F') => Some(Maestro)
    case ('3', 'F') => Some(Alibi)
    case _ => None
  }

  /** The operator whose index token is `index`, if there is one. */
  function FromIndex(index: string): (r: Option<Operator>)
    ensures r.Some? ==> Index(r.value) == index
  {
    if |index| != 3 then None
    else match IndexOwner(index[0], index[2])
      case Some(op) => if Index(op) == index then Some(op) else None
      case None => None
  }

  /** The constant whose name has this length, first and last letter, if any. */
  function NameOwner(length: int, first: char, last: char): Option<Operator> {
    match (length, first, last)
    case (5, 'S', 'E') => Some(Smoke)
    case (4, 'M', 'E') => Some(Mute)
    case (6, 'S', 'E') => Some(Sledge)
    case (8, 'T', 'R') => Some(Thatcher)
    case (6, 'C', 'E') => Some(Castle)
    case (3, 'A', 'H') => Some(Ash)
    case (5, 'P', 'E') => Some(Pulse)
    case (8, 'T', 'E') => Some(Thermite)
    case (3, 'D', 'C') => Some(Doc)
    case (4, 'R', 'K') => Some(Rook)
    case (6, 'T', 'H') => Some(Twitch)
    case (8, 'M', 'E') => Some(Montagne)
    case (4, 'G', 'Z') => Some(Glaz)
    case (4, 'F', 'E') => Some(Fuze)
    case (6, 'K', 'N') => Some(Kapkan)
    case (8, 'T', 'A') => Some(Tachanka)
    case (5, 'B', 'Z') => Some(Blitz)
    case (2, 'I', 'Q') => Some(Iq)
    case (5, 'J', 'R') => Some(Jager)
    case (6, 'B', 'T') => Some(Bandit)
    case (4, 'B', 'K') => Some(Buck)
    case (5, 'F', 'T') => Some(Frost)
    case (10, 'B', 'D') => Some(Blackbeard)
    case (8, 'V', 'E') => Some(Valkyrie)
    case (7, 'C', 'O') => Some(Capitao)
    case (7, 'C', 'A') => Some(Caveira)
    case (6, 'H', 'A') => Some(Hibana)
    case (4, 'E', 'O') => Some(Echo)
    case (6, 'J', 'L') => Some(Jackal)
    case (4, 'M', 'A') => Some(Mira)
    case (4, 'Y', 'G') => Some(Ying)
    case (6, 'L', 'N') => Some(Lesion)
    case (3, 'E', 'A') => Some(Ela)
    case (5, 'Z', 'A') => Some(Zofia)
    case (5, 'V', 'L') => Some(Vigil)
    case (8, 'D', 'I') => Some(Dokkaebi)
    case (4, 'L', 'N') => Some(Lion)
    case (5, 'F', 'A') => Some(Finka)
    case (7, 'M', 'O') => Some(Maestro)
    case (5, 'A', 'I') => Some(Alibi)
    case _ => None
  }

  /** The operator whose id is `id`, if there is one. */
  function FromId(id: string): (r: Option<Operator>)
    ensures r.Some? ==> Id(r.value) == id
  {
    if |id| == 0 then None
    else match NameOwner(|id|, UpperChar(id[0]), UpperChar(id[|id| - 1]))
      case Some(op) => if Id(op) == id then Some(op) else None
      case None => None
  }

  /**
   * Reads a per-operator statistic key back into the operator and the
   * statistic it names.
   */
  function ParseStatisticName(key: string): Option<(Operator, string)> {
    if |key| < 25 || !StartsWith(key, "operatorpvp_") || !EndsWith(key, ":infinite")
       || key[|key| - 13] != ':' then None
    else match FromIndex(key[|key| - 12..|key| - 9])
      case None => None
      case Some(op) => Some((op, key[12..|key| - 13]))
  }

  // ---------------------------------------------------------------------------
  // Properties of the table

  /** `id` is the lower-cased constant name: JAGER gives "jager", not "jäger". */
  lemma IdExamples()
    ensures Id(Smoke) == "smoke" && Id(Jager) == "jager"
    ensures Id(Capitao) == "capitao" && Id(Iq) == "iq"
  {
  }

  /**
   * Ordinals number the constants 0 to 39 without gaps or repeats.
   */
  lemma OrdinalRoundTrip(op: Operator)
    ensures Ordinal(op) < 40 && FromOrdinal(Ordinal(op)) == Some(op)
  {
    if Ordinal(op) < 10 {
      OrdinalRoundTrip0(op);
    } else if Ordinal(op) < 20 {
      OrdinalRoundTrip1(op);
    } else if Ordinal(op) < 30 {
      OrdinalRoundTrip2(op);
    } else {
      OrdinalRoundTrip3(op);
    }
  }

  lemma OrdinalRoundTrip0(op: Operator)
    requires Ordinal(op) < 10
    ensures Ordinal(op) < 40 && FromOrdinal(Ordinal(op)) == Some(op)
  {
  }

  lemma OrdinalRoundTrip1(op: Operator)
    requires 10 <= Ordinal(op) < 20
    ensures Ordinal(op) < 40 && FromOrdinal(Ordinal(op)) == Some(op)
  {
  }

  lemma OrdinalRoundTrip2(op: Operator)
    requires 20 <= Ordinal(op) < 30
    ensures Ordinal(op) < 40 && FromOrdinal(Ordinal(op)) == Some(op)
  {
  }

  lemma OrdinalRoundTrip3(op: Operator)
    requires 30 <= Ordinal(op)
    ensures Ordinal(op) < 40 && FromOrdinal(Ordinal(op)) == Some(op)
  {
  }

  /** Every position below forty holds a constant, and none beyond. */
  lemma FortyConstants(n: nat)
    ensures FromOrdinal(n).Some? <==> n < 40
    ensures FromOrdinal(n).Some? ==> Ordinal(FromOrdinal(n).value) == n
  {
  }

  /**
   * `id` has the name's length, holds no upper-case letter and equals the
   * name when case is ignored.
   */
  lemma IdIsLowerCaseName(op: Operator)
    ensures |Id(op)| == |Name(op)| && IsLowerCase(Id(op)) && EqualsIgnoreCase(Id(op), Name(op))
  {
    var id := Id(op);
    assert ToLower(id) == id;
    EqualsIgnoreCaseIffSameLower(id, Name(op));
  }

  /**
   * Every index token is a digit, a colon and one of 1-9, A-F, and its
   * first and last characters single out its constant.
   */
  lemma IndexOwnerOf(op: Operator)
    ensures |Index(op)| == 3 && '0' <= Index(op)[0] <= '9' && Index(op)[1] == ':'
    ensures '1' <= Index(op)[2] <= '9' || 'A' <= Index(op)[2] <= 'F'
    ensures IndexOwner(Index(op)[0], Index(op)[2]) == Some(op)
  {
    if Ordinal(op) < 10 {
      IndexOwnerOf0(op);
    } else if Ordinal(op) < 20 {
      IndexOwnerOf1(op);
    } else if Ordinal(op) < 30 {
      IndexOwnerOf2(op);
    } else {
      IndexOwnerOf3(op);
    }
  }

  lemma IndexOwnerOf0(op: Operator)
    requires Ordinal(op) < 10
    ensures |Index(op)| == 3 && '0' <= Index(op)[0] <= '9' && Index(op)[1] == ':'
    ensures '1' <= Index(op)[2] <= '9' || 'A' <= Index(op)[2] <= 'F'
    ensures IndexOwner(Index(op)[0], Index(op)[2]) == Some(op)
  {
  }

  lemma IndexOwnerOf1(op: Operator)
    requires 10 <= Ordinal(op) < 20
    ensures |Index(op)| == 3 && '0' <= Index(op)[0] <= '9' && Index(op)[1] == ':'
    ensures '1' <= Index(op)[2] <= '9' || 'A' <= Index(op)[2] <= 'F'
    ensures IndexOwner(Index(op)[0], Index(op)[2]) == Some(op)
  {
  }

  lemma IndexOwnerOf2(op: Operator)
    requires 20 <= Ordinal(op) < 30
    ensures |Index(op)| == 3 && '0' <= Index(op)[0] <= '9' && Index(op)[1] == ':'
    ensures '1' <= Index(op)[2] <= '9' || 'A' <= Index(op)[2] <= 'F'
    ensures IndexOwner(Index(op)[0], Index(op)[2]) == Some(op)
  {
  }

  lemma IndexOwnerOf3(op: Operator)
    requires 30 <= Ordinal(op)
    ensures |Index(op)| == 3 && '0' <= Index(op)[0] <= '9' && Index(op)[1] == ':'
    ensures '1' <= Index(op)[2] <= '9' || 'A' <= Index(op)[2] <= 'F'
    ensures IndexOwner(Index(op)[0], Index(op)[2]) == Some(op)
  {
  }

  /** Every index token is a digit, a colon and one of 1-9, A-F. */
  lemma IndexShape(op: Operator)
    ensures |Index(op)| == 3 && '0' <= Index(op)[0] <= '9' && Index(op)[1] == ':'
    ensures '1' <= Index(op)[2] <= '9' || 'A' <= Index(op)[2] <= 'F'
  {
    IndexOwnerOf(op);
  }

  lemma CategoryIsAtkOrDef(op: Operator)
    ensures Category(op) == "atk" || Category(op) == "def"
  {
  }

  /** Looking an operator up by its own index token finds it. */
  lemma FromOwnIndex(op: Operator)
    ensures FromIndex(Index(op)) == Some(op)
  {
    IndexOwnerOf(op);
  }

  /** Index tokens tell the operators apart. */
  lemma IndexInjective(a: Operator, b: Operator)
    requires Index(a) == Index(b)
    ensures a == b
  {
    FromOwnIndex(a);
    FromOwnIndex(b);
  }

  /**
   * The length, first and last letter of each name single out its constant.
   */
  lemma NameEndsOwner(op: Operator)
    ensures |Name(op)| > 0 && IsUpperAscii(Name(op)[0]) && IsUpperAscii(Name(op)[|Name(op)| - 1])
    ensures NameOwner(|Name(op)|, Name(op)[0], Name(op)[|Name(op)| - 1]) == Some(op)
  {
    if Ordinal(op) < 10 {
      NameEndsOwner0(op);
    } else if Ordinal(op) < 20 {
      NameEndsOwner1(op);
    } else if Ordinal(op) < 30 {
      NameEndsOwner2(op);
    } else {
      NameEndsOwner3(op);
    }
  }

  lemma NameEndsOwner0(op: Operator)
    requires Ordinal(op) < 10
    ensures |Name(op)| > 0 && IsUpperAscii(Name(op)[0]) && IsUpperAscii(Name(op)[|Name(op)| - 1])
    ensures NameOwner(|Name(op)|, Name(op)[0], Name(op)[|Name(op)| - 1]) == Some(op)
  {
  }

  lemma NameEndsOwner1(op: Operator)
    requires 10 <= Ordinal(op) < 20
    ensures |Name(op)| > 0 && IsUpperAscii(Name(op)[0]) && IsUpperAscii(Name(op)[|Name(op)| - 1])
    ensures NameOwner(|Name(op)|, Name(op)[0], Name(op)[|Name(op)| - 1]) == Some(op)
  {
  }

  lemma NameEndsOwner2(op: Operator)
    requires 20 <= Ordinal(op) < 30
    ensures |Name(op)| > 0 && IsUpperAscii(Name(op)[0]) && IsUpperAscii(Name(op)[|Name(op)| - 1])
    ensures NameOwner(|Name(op)|, Name(op)[0], Name(op)[|Name(op)| - 1]) == Some(op)
  {
  }

  lemma NameEndsOwner3(op: Operator)
    requires 30 <= Ordinal(op)
    ensures |Name(op)| > 0 && IsUpperAscii(Name(op)[0]) && IsUpperAscii(Name(op)[|Name(op)| - 1])
    ensures NameOwner(|Name(op)|, Name(op)[0], Name(op)[|Name(op)| - 1]) == Some(op)
  {
  }

  /** Looking an operator up by its own id finds it. */
  lemma FromOwnId(op: Operator)
    ensures FromId(Id(op)) == Some(op)
  {
    NameEndsOwner(op);
    ToLowerEnds(Name(op));
  }

  /** Ids tell the operators apart. */
  lemma IdInjective(a: Operator, b: Operator)
    requires Id(a) == Id(b)
    ensures a == b
  {
    FromOwnId(a);
    FromOwnId(b);
  }

  /** So do the constant names the ids are made from. */
  lemma NameInjective(a: Operator, b: Operator)
    requires Name(a) == Name(b)
    ensures a == b
  {
    IdInjective(a, b);
  }

  // ---------------------------------------------------------------------------
  // Properties of the keys

  lemma GadgetStatisticQueryExample()
    ensures GadgetStatisticQuery(Smoke) == "operatorpvp_smoke_poisongaskill:2:1"
  {
  }

  /** The shape of a gadget key, for any id, gadget and index strings. */
  lemma GadgetKeyParts(id: string, gadget: string, index: string)
    ensures StartsWith("operatorpvp_" + id + "_" + gadget + ":" + index, "operatorpvp_" + id + "_")
    ensures EndsWith("operatorpvp_" + id + "_" + gadget + ":" + index, ":" + index)
  {
    ConcatEnds("operatorpvp_" + id + "_", gadget + ":" + index);
    assert "operatorpvp_" + id + "_" + gadget + ":" + index
        == ("operatorpvp_" + id + "_") + (gadget + ":" + index);
    ConcatEnds("operatorpvp_" + id + "_" + gadget, ":" + index);
  }

  /**
   * The gadget key starts with "operatorpvp_", the id and "_", ends with ":"
   * and the index token, and so names exactly one operator.
   */
  lemma GadgetStatisticQueryIdentifies(a: Operator, b: Operator)
    ensures StartsWith(GadgetStatisticQuery(a), "operatorpvp_" + Id(a) + "_")
    ensures EndsWith(GadgetStatisticQuery(a), ":" + Index(a))
    ensures GadgetStatisticQuery(a) == GadgetStatisticQuery(b) ==> a == b
  {
    GadgetKeyParts(Id(a), Gadget(a), Index(a));
    if GadgetStatisticQuery(a) == GadgetStatisticQuery(b) {
      IndexShape(a);
      IndexShape(b);
      SameSuffix("operatorpvp_" + Id(a) + "_" + Gadget(a) + ":", Index(a),
                 "operatorpvp_" + Id(b) + "_" + Gadget(b) + ":", Index(b));
      IndexInjective(a, b);
    }
  }

  /** The parts of a statistic key, for any statistic and any 3-character index. */
  lemma StatisticKeyParts(statistic: string, index: string)
    requires |index| == 3
    ensures var key := "operatorpvp_" + statistic + ":" + index + ":infinite";
      |key| == |statistic| + 25 && StartsWith(key, "operatorpvp_") &&
      EndsWith(key, ":" + index + ":infinite") && key[|key| - 13] == ':' &&
      key[|key| - 12..|key| - 9] == index && key[12..|key| - 13] == statistic
  {
    var key := "operatorpvp_" + statistic + ":" + index + ":infinite";
    assert key == "operatorpvp_" + (statistic + (":" + index + ":infinite"));
    assert key == ("operatorpvp_" + statistic) + (":" + index + ":infinite");
  }

  /** Every statistic key starts with "operatorpvp_" and ends with ":infinite". */
  lemma StatisticNameShape(op: Operator, statistic: string)
    ensures StartsWith(StatisticName(op, statistic), "operatorpvp_")
    ensures EndsWith(StatisticName(op, statistic), ":" + Index(op) + ":infinite")
    ensures EndsWith(StatisticName(op, statistic), ":infinite")
    ensures |StatisticName(op, statistic)| == |statistic| + 25
  {
    IndexShape(op);
    StatisticKeyParts(statistic, Index(op));
    ConcatEnds(":" + Index(op), ":infinite");
  }

  /** Parsing a statistic key gives back the operator and the statistic. */
  lemma ParseStatisticNameRoundTrip(op: Operator, statistic: string)
    ensures ParseStatisticName(StatisticName(op, statistic)) == Some((op, statistic))
  {
    IndexShape(op);
    StatisticKeyParts(statistic, Index(op));
    FromOwnIndex(op);
  }

  /**
   * A statistic key determines both the operator and the statistic; in
   * particular, for a fixed operator `getStatisticName` is injective.
   */
  lemma StatisticNameInjective(a: Operator, s: string, b: Operator, t: string)
    requires StatisticName(a, s) == StatisticName(b, t)
    ensures a == b && s == t
  {
    ParseStatisticNameRoundTrip(a, s);
    ParseStatisticNameRoundTrip(b, t);
  }
}

=== FILE: query.dfy ===
/**
 * The query string `buildUrl` appends to a URL: each key and value
 * form-encoded, joined as `key=value`, the pairs joined with `&` in the
 * order given, the way a `StringJoiner("&")` joins what is added to it.
 * Splitting on `&` and then on the first `=` and decoding reads it back.
 */
module Query {
  import opened Wrappers
  import FormUrlEncoding

  /** One `key=value` element, both parts form-encoded. */
  function Segment(key: string, value: string): string {
    FormUrlEncoding.Encode(key) + "=" + FormUrlEncoding.Encode(value)
  }

  /** `f` applied to each key/value pair of an alternating list, in order. */
  function MapPairs(ps: seq<string>, f: (string, string) -> string): (r: seq<string>)
    requires |ps| % 2 == 0
    ensures |r| == |ps| / 2
  {
    if ps == [] then [] else [f(ps[0], ps[1])] + MapPairs(ps[2..], f)
  }

  /** The elements added to the joiner: one per key/value pair, in order. */
  function Segments(ps: seq<string>): seq<string>
    requires |ps| % 2 == 0
  {
    MapPairs(ps, Segment)
  }

  /** The key/value pairs of an alternating list. */
  function Pairs(ps: seq<string>): (r: seq<(string, string)>)
    requires |ps| % 2 == 0
    ensures |r| == |ps| / 2
    ensures forall k :: 0 <= k < |r| ==> r[k] == (ps[2 * k], ps[2 * k + 1])
  {
    if ps == [] then [] else [(ps[0], ps[1])] + Pairs(ps[2..])
  }

  /** What `StringJoiner.toString()` gives for the added elements. */
  function Join(parts: seq<string>, sep: char): string {
    if |parts| == 0 then ""
    else if |parts| == 1 then parts[0]
    else parts[0] + [sep] + Join(parts[1..], sep)
  }

  /** The query string of an even-length parameter list. */
  function QueryString(ps: seq<string>): string
    requires |ps| % 2 == 0
  {
    Join(Segments(ps), '&')
  }

  /** Splits `s` at every `sep`, keeping empty pieces. */
  function Split(s: string, sep: char): (r: seq<string>)
    ensures |r| >= 1
  {
    if s == [] then [""]
    else
      var rest := Split(s[1..], sep);
      if s[0] == sep then [""] + rest else [[s[0]] + rest[0]] + rest[1..]
  }

  /** Splits a `key=value` element at its first `=` and decodes both sides. */
  function ParseSegment(seg: string): Option<(string, string)> {
    if '=' !in seg then None
    else
      var i := FirstIndex(seg, '=');
      match (FormUrlEncoding.Decode(seg[..i]), FormUrlEncoding.Decode(seg[i + 1..]))
      case (Some(k), Some(v)) => Some((k, v))
      case _ => None
  }

  function FirstIndex(s: string, c: char): (i: nat)
    requires c in s
    ensures i < |s| && s[i] == c && c !in s[..i]
  {
    if s[0] == c then 0 else 1 + FirstIndex(s[1..], c)
  }

  function ParseSegments(segs: seq<string>): Option<seq<(string, string)>> {
    if segs == [] then Some([])
    else match (ParseSegment(segs[0]), ParseSegments(segs[1..]))
      case (Some(p), Some(rest)) => Some([p] + rest)
      case _ => None
  }

  /** Reads a query string back into its key/value pairs. */
  function ParseQuery(q: string): Option<seq<(string, string)>> {
    if q == "" then Some([]) else ParseSegments(Split(q, '&'))
  }

  // ---------------------------------------------------------------------------
  // Properties

  /** Adding one more element to a joiner. */
  lemma {:induction false} JoinAppend(parts: seq<string>, s: string, sep: char)
    ensures Join(parts + [s], sep) == if parts == [] then s else Join(parts, sep) + [sep] + s
  {
    if |parts| > 1 {
      assert (parts + [s])[1..] == parts[1..] + [s];
      JoinAppend(parts[1..], s, sep);
    } else if |parts| == 1 {
      assert (parts + [s])[1..] == [s];
    }
  }

  /** Element `k` comes from pair `k`. */
  lemma {:induction false} MapPairsAt(ps: seq<string>, f: (string, string) -> string)
    requires |ps| % 2 == 0
    ensures forall k :: 0 <= k < |ps| / 2 ==> MapPairs(ps, f)[k] == f(ps[2 * k], ps[2 * k + 1])
  {
    if ps != [] {
      MapPairsAt(ps[2..], f);
      forall k | 1 <= k < |ps| / 2
        ensures MapPairs(ps, f)[k] == f(ps[2 * k], ps[2 * k + 1])
      {
        assert MapPairs(ps, f)[k] == MapPairs(ps[2..], f)[k - 1];
        assert ps[2..][2 * (k - 1)] == ps[2 * k] && ps[2..][2 * (k - 1) + 1] == ps[2 * k + 1];
      }
    }
  }

  /** Mapping a prefix that ends on a pair boundary, one pair at a time. */
  lemma {:induction false} MapPairsPrefix(ps: seq<string>, i: nat, f: (string, string) -> string)
    requires i + 2 <= |ps| && i % 2 == 0 && |ps| % 2 == 0
    ensures MapPairs(ps[..i + 2], f) == MapPairs(ps[..i], f) + [f(ps[i], ps[i + 1])]
  {
    if i == 0 {
      assert ps[..2][2..] == [];
    } else {
      MapPairsPrefix(ps[2..], i - 2, f);
      assert ps[..i + 2][2..] == ps[2..][..i];
      assert ps[..i][2..] == ps[2..][..i - 2];
    }
  }

  /** One element per pair, in the order of the pairs. */
  lemma SegmentsAt(ps: seq<string>)
    requires |ps| % 2 == 0
    ensures |Segments(ps)| == |ps| / 2
    ensures forall k :: 0 <= k < |ps| / 2 ==> Segments(ps)[k] == Segment(ps[2 * k], ps[2 * k + 1])
  {
    MapPairsAt(ps, Segment);
  }

  /** The segments of a prefix ending on a pair boundary. */
  lemma SegmentsPrefix(ps: seq<string>, i: nat)
    requires i + 2 <= |ps| && i % 2 == 0 && |ps| % 2 == 0
    ensures Segments(ps[..i + 2]) == Segments(ps[..i]) + [Segment(ps[i], ps[i + 1])]
  {
    MapPairsPrefix(ps, i, Segment);
  }

  /** A string without the separator is one piece. */
  lemma {:induction false} SplitNoSep(p: string, sep: char)
    requires sep !in p
    ensures Split(p, sep) == [p]
  {
    if p != [] {
      SplitNoSep(p[1..], sep);
      assert [p[0]] + p[1..] == p;
    }
  }

  /** A piece without the separator, the separator, then the rest. */
  lemma {:induction false} SplitAfterPiece(p: string, sep: char, t: string)
    requires sep !in p
    ensures Split(p + [sep] + t, sep) == [p] + Split(t, sep)
  {
    if p == [] {
      assert [] + [sep] + t == [sep] + t;
      assert ([sep] + t)[1..] == t;
    } else {
      assert (p + [sep] + t)[1..] == p[1..] + [sep] + t;
      SplitAfterPiece(p[1..], sep, t);
      assert [p[0]] + p[1..] == p;
    }
  }

  /** Splitting a join of separator-free pieces gives the pieces back. */
  lemma {:induction false} SplitJoin(parts: seq<string>, sep: char)
    requires |parts| >= 1
    requires forall k :: 0 <= k < |parts| ==> sep !in parts[k]
    ensures Split(Join(parts, sep), sep) == parts
  {
    if |parts| == 1 {
      SplitNoSep(parts[0], sep);
    } else {
      SplitAfterPiece(parts[0], sep, Join(parts[1..], sep));
      SplitJoin(parts[1..], sep);
      assert [parts[0]] + parts[1..] == parts;
    }
  }

  /** An element is split at the `=` the joiner wrote and decodes to its pair. */
  lemma ParseSegmentRoundTrip(key: string, value: string)
    ensures ParseSegment(Segment(key, value)) == Some((key, value))
  {
    var ek, ev := FormUrlEncoding.Encode(key), FormUrlEncoding.Encode(value);
    var seg := Segment(key, value);
    FormUrlEncoding.EncodeHasNoSeparators(key);
    assert seg[|ek|] == '=';
    assert seg[..|ek|] == ek;
    assert FirstIndex(seg, '=') == |ek|;
    assert seg[|ek| + 1..] == ev;
    FormUrlEncoding.DecodeEncode(key);
    FormUrlEncoding.DecodeEncode(value);
  }

  lemma {:induction false} ParseSegmentsRoundTrip(ps: seq<string>)
    requires |ps| % 2 == 0
    ensures ParseSegments(Segments(ps)) == Some(Pairs(ps))
  {
    if ps != [] {
      var segs := Segments(ps);
      ParseSegmentRoundTrip(ps[0], ps[1]);
      ParseSegmentsRoundTrip(ps[2..]);
      assert segs[1..] == Segments(ps[2..]);
    }
  }

  /** No element contains `&`: encoded text never does, nor does `=`. */
  lemma SegmentHasNoAmpersand(key: string, value: string)
    ensures '&' !in Segment(key, value)
  {
    FormUrlEncoding.EncodeHasNoSeparators(key);
    FormUrlEncoding.EncodeHasNoSeparators(value);
  }

  /**
   * The query holds one `&`-separated element per pair, in the order of the
   * pairs, and reading it back gives the original key/value pairs.
   */
  lemma QueryRoundTrip(ps: seq<string>)
    requires |ps| % 2 == 0
    ensures ps != [] ==> Split(QueryString(ps), '&') == Segments(ps)
    ensures ParseQuery(QueryString(ps)) == Some(Pairs(ps))
  {
    var segs := Segments(ps);
    if ps != [] {
      SegmentsAt(ps);
      forall k | 0 <= k < |segs| ensures '&' !in segs[k] {
        SegmentHasNoAmpersand(ps[2 * k], ps[2 * k + 1]);
      }
      SplitJoin(segs, '&');
      assert '=' in segs[0];
      assert segs == [segs[0]] + segs[1..];
      assert QueryString(ps) != "" by {
        if |segs| > 1 {
          assert |QueryString(ps)| >= |segs[0]|;
        }
      }
      ParseSegmentsRoundTrip(ps);
    }
  }

  lemma QueryStringExample()
    ensures QueryString(["a", "b c", "d", "e&f"]) == "a=b+c&d=e%26f"
  {
    FormUrlEncoding.EncodeExamples();
    FormUrlEncoding.EncodeUnreserved("a");
    FormUrlEncoding.EncodeUnreserved("d");
    var ps := ["a", "b c", "d", "e&f"];
    assert Segment("a", "b c") == "a=b+c";
    assert Segment("d", "e&f") == "d=e%26f";
    assert ps[2..][2..] == [];
    assert Segments(ps) == ["a=b+c", "d=e%26f"];
  }
}

=== FILE: text.dfy ===
/**
 * Character-level helpers shared by the catalogs: the ASCII case mappings that
 * `String.toLowerCase` and `String.equalsIgnoreCase` perform on the ASCII
 * letters, and plain prefix/suffix predicates used to state key formats.
 */
module Text {

  predicate IsUpperAscii(c: char) { 'A' <= c <= 'Z' }
  predicate IsLowerAscii(c: char) { 'a' <= c <= 'z' }

  function LowerChar(c: char): (r: char)
    ensures !IsUpperAscii(r)
    ensures IsUpperAscii(c) ==> IsLowerAscii(r)
    ensures !IsUpperAscii(c) ==> r == c
  {
    if IsUpperAscii(c) then (c as int + 32) as char else c
  }

  function UpperChar(c: char): (r: char)
    ensures !IsLowerAscii(r)
    ensures IsLowerAscii(c) ==> IsUpperAscii(r)
    ensures !IsLowerAscii(c) ==> r == c
  {
    if IsLowerAscii(c) then (c as int - 32) as char else c
  }

  /** `s.toLowerCase()` restricted to the ASCII letters. */
  function ToLower(s: string): (r: string)
    ensures |r| == |s|
  {
    seq(|s|, i requires 0 <= i < |s| => LowerChar(s[i]))
  }

  /** No upper-case ASCII letter occurs in `s`. */
  predicate IsLowerCase(s: string) {
    forall i :: 0 <= i < |s| ==> !IsUpperAscii(s[i])
  }

  /**
   * Two characters match when they are equal, when their upper-case forms are
   * equal, or when the lower-case forms of those are equal: the three tests of
   * `String.regionMatches(true, ...)`, with ASCII case mapping.
   */
  predicate CharEqualsIgnoreCase(a: char, b: char) {
    a == b || UpperChar(a) == UpperChar(b) || LowerChar(UpperChar(a)) == LowerChar(UpperChar(b))
  }

  /** `a.equalsIgnoreCase(b)` for non-null `b`: equal lengths, matching characters. */
  predicate EqualsIgnoreCase(a: string, b: string) {
    |a| == |b| && forall i :: 0 <= i < |a| ==> CharEqualsIgnoreCase(a[i], b[i])
  }

  /** Ignoring ASCII case is the same as comparing the lower-case forms. */
  lemma EqualsIgnoreCaseIffSameLower(a: string, b: string)
    ensures EqualsIgnoreCase(a, b) <==> ToLower(a) == ToLower(b)
  {
    if |a| == |b| {
      if EqualsIgnoreCase(a, b) {
        forall i | 0 <= i < |a| ensures ToLower(a)[i] == ToLower(b)[i] {
          assert CharEqualsIgnoreCase(a[i], b[i]);
        }
      }
      if ToLower(a) == ToLower(b) {
        forall i | 0 <= i < |a| ensures CharEqualsIgnoreCase(a[i], b[i]) {
          assert LowerChar(a[i]) == ToLower(a)[i] == ToLower(b)[i] == LowerChar(b[i]);
        }
      }
    }
  }

  lemma EqualsIgnoreCaseTransitive(a: string, b: string, c: string)
    requires EqualsIgnoreCase(a, b) && EqualsIgnoreCase(b, c)
    ensures EqualsIgnoreCase(a, c)
  {
    EqualsIgnoreCaseIffSameLower(a, b);
    EqualsIgnoreCaseIffSameLower(b, c);
    EqualsIgnoreCaseIffSameLower(a, c);
  }

  lemma EqualsIgnoreCaseSymmetric(a: string, b: string)
    requires EqualsIgnoreCase(a, b)
    ensures EqualsIgnoreCase(b, a)
  {
    EqualsIgnoreCaseIffSameLower(a, b);
    EqualsIgnoreCaseIffSameLower(b, a);
  }

  /**
   * Lower-casing keeps the length, and upper-casing the first and last
   * characters of the result gives back those of a string whose ends are
   * upper-case letters.
   */
  lemma ToLowerEnds(s: string)
    requires |s| > 0 && IsUpperAscii(s[0]) && IsUpperAscii(s[|s| - 1])
    ensures |ToLower(s)| == |s|
    ensures UpperChar(ToLower(s)[0]) == s[0] && UpperChar(ToLower(s)[|s| - 1]) == s[|s| - 1]
  {
  }

  predicate StartsWith(s: string, prefix: string) {
    |prefix| <= |s| && s[..|prefix|] == prefix
  }

  predicate EndsWith(s: string, suffix: string) {
    |suffix| <= |s| && s[|s| - |suffix|..] == suffix
  }

  lemma ConcatEnds(p: string, s: string)
    ensures StartsWith(p + s, p) && EndsWith(p + s, s)
    ensures (p + s)[..|p|] == p && (p + s)[|p|..] == s
  {
  }

  /** A key built from four parts starts with the first two and ends with the last. */
  lemma FourParts(a: string, b: string, c: string, d: string)
    ensures a + b + c + d == (a + b) + (c + d)
    ensures StartsWith(a + b + c + d, a + b) && EndsWith(a + b + c + d, d)
    ensures |a| > 0 ==> (a + b + c + d)[0] == a[0]
  {
    ConcatEnds(a + b, c + d);
    ConcatEnds(a + b + c, d);
  }

  /** Two equal concatenations with equally long tails have equal tails. */
  lemma SameSuffix(p: string, s: string, q: string, t: string)
    requires p + s == q + t && |s| == |t|
    ensures s == t
  {
    ConcatEnds(p, s);
    ConcatEnds(q, t);
  }

  /** Two equal concatenations with equally long heads have equal heads and tails. */
  lemma SamePrefix(p: string, s: string, q: string, t: string)
    requires p + s == q + t && |p| == |q|
    ensures p == q && s == t
  {
    ConcatEnds(p, s);
    ConcatEnds(q, t);
  }
}

=== FILE: wrappers.dfy ===
/** The optional value the Java code expresses as a possibly-null reference. */
module Wrappers {

  datatype Option<+T> = None | Some(value: T)
}
